=== FILE: README.md ===
# Columns rules engine in Dafny

This project models the rules engine of a "Columns" falling-jewels game, the
`GameState` class and its `Faller` record. The game is played on a fixed grid of
rows × columns. Every cell holds a one-character jewel and one of five states:
empty, faller moving, faller stopped, occupied or matching. A faller is a
vertical piece of three jewels. It enters the board at the top, one segment at a
time, and can be rotated or moved sideways. When it lands it is locked into
occupied cells. After every tick a matching pass runs. It clears the cells marked
by the previous pass and lets the remaining jewels fall. Then it marks every run
of three or more equal jewels, horizontal, vertical or along a "/" diagonal.

The model is functional. A `Board` is an immutable value stored column by column
(`cells[c][r]`, row 0 at the top) and read through `Boards.Get`. Each method of
the class becomes a pure function or a method from one game state to the next.
No behaviour of the class depends on aliasing of its board, so immutable values
lose nothing and let every contract speak about whole results:

- `cells.dfy`: the cell states and the blank-iff-empty cell invariant.
- `boards.dfy`: the board, the cell writers `_cell`, `_cell_contents`,
  `_cell_state` and `_move_cell`, and `_solid_faller`.
- `runs.dfy`: the meaning of "in a run of at least three", defined twice. One
  definition counts neighbours. The other is an independent definition by a
  covering stretch. A lemma proves the two agree.
- `scanner.dfy`: the counting loop shared by the three `_match_*` scanners,
  proved to mark exactly the run cells of a line.
- `lines.dfy`: rows, columns and "/" walks of a board as lines, the
  per-orientation run predicates, and the writers that mark selected positions
  of a line.
- `marking.dfy`: `_mark_matched_cells` as written, one `_cell_state` call per
  cell, proved equal in each of its three directions to marking one more range
  of positions on the scanned line.
- `gravity.dfy`: `_gravity`, column by column, proved equal on clean columns to a
  reference compaction.
- `matching.dfy`: `_match_horizontal`, `_match_vertical`, `_match_diagonal` and
  `_matching`.
- `game.dfy`: the faller, `GameState(rows, columns)`, `_update_faller_state`,
  `generate_faller`, `rotate`, `move_side` and `_move_faller_down`.
- `lifecycle.dfy`: `clock`, `board_contents`, and lemmas that relate several
  operations: three rotations, a move there and back, and a descent.

Two relations serve as the independent definitions:

- **Run cells.** `Lines.AnyRun` says a cell lies in a maximal run of at least
  three equal matchable cells in some scanned orientation. `Matching.Resolve`
  describes the result of a pass cell by cell in terms of it.
- **Compaction.** `Compaction.Compact` is the reference for gravity: blanks on
  top, then the column's occupied cells in their original order.

The source's own loops are modelled step for step: the scanners' counters, the
bottom-up settling of `_gravity`, and the three `_move_cell` calls of a descent.
Each loop is then proved equal to the relevant definition.

## Model

| member | source | states |
|---|---|---|
| Boards.NewBoard | virtualenv/src/columns_game.py:35-44 | a new board has the requested shape and every cell is (blank, empty) |
| Boards.SetContents | virtualenv/src/columns_game.py:228-236 | a write above the board (negative row) changes nothing; otherwise only that cell's contents change and its state is kept |
| Boards.SetState | virtualenv/src/columns_game.py:239-246 | a write above the board changes nothing; otherwise only that cell's state changes and its contents are kept |
| Boards.SetCell | virtualenv/src/columns_game.py:215-224 | a negative row is ignored; otherwise the cell becomes exactly (contents, state), every other cell is unchanged, and the blank-iff-empty invariant is kept when the written cell satisfies it |
| Cells.Matchable | virtualenv/src/columns_game.py:8-12 | a state takes part in matching exactly when it is neither a faller state nor empty, that is, occupied or matching |
| Boards.Solid | virtualenv/src/columns_game.py:459-469 | the floor below the last row and occupied cells hold a faller up; empty, faller and matching cells do not |
| Boards.MoveCell | virtualenv/src/columns_game.py:499-517 | the source becomes (blank, empty), the neighbour below or beside it receives the source's old value, nothing else changes, and the invariant is kept |
| Runs.InRunIffLongStretch | virtualenv/src/columns_game.py:295-321 | a line position is in a run by the neighbour count exactly when some stretch of at least three equal matchable cells covers it (both directions) |
| Runs.MinimumRunLength | virtualenv/src/columns_game.py:305-314 | three linked cells are all in a run; a maximal pair of equal matchable cells is not in a run |
| Runs.TwinsInRun | virtualenv/src/columns_game.py:416-430 | two lines that agree on contents and matchability have the same run cells, so marking occupied cells as matching never changes what a later scan finds |
| Scanner.ScanLine | virtualenv/src/columns_game.py:295-321 | the scanner loop, with its `matches` and `jewel` counters and its end-of-line and run-break cases, marks a position exactly when it lies in a run of at least three |
| Marking.MarkMatchedCells | virtualenv/src/columns_game.py:416-430 | after the `amount` state writes, a cell is matching-marked exactly when it is one of the cells the walk visits from `(row, column)` in the given direction; every other cell and every cell's contents are unchanged |
| Marking.MarkLeftIsMarkRow | virtualenv/src/columns_game.py:420-422 | the left walk from `(r, e)` over `n` cells marks exactly what adding positions `e-n+1..e` to the row's marked positions marks, so each call of the horizontal scanner is one marked range of its row |
| Marking.MarkDownIsMarkColumn | virtualenv/src/columns_game.py:424-426 | the downward walk from row `rows-1-e` marks exactly what adding positions `e-n+1..e` of the bottom-to-top column line marks |
| Marking.MarkDownLeftIsMarkWalk | virtualenv/src/columns_game.py:428-430 | the down-left walk from the walk position `e` marks exactly what adding positions `e-n+1..e` of the "/" walk marks |
| Lines.MarkRow | virtualenv/src/columns_game.py:420-422 | the selected positions of row `r` become matching with their contents kept; every other cell is unchanged |
| Lines.MarkColumn | virtualenv/src/columns_game.py:424-426 | the selected positions of column `c`, counted from the bottom, become matching; every other cell is unchanged |
| Lines.MarkWalk | virtualenv/src/columns_game.py:428-430 | the selected positions of the "/" walk from `(r, c)` become matching; every cell off the walk, or not selected, is unchanged |
| Lines.EndWalkFindsDiagonalRuns | virtualenv/src/columns_game.py:368-412 | the "/" walk from the lower-left end of a diagonal finds exactly that diagonal's run cells |
| Lines.WalkRunIsDiagonalRun | virtualenv/src/columns_game.py:376-412 | a run found by a walk from any anchor, even partway along a diagonal, lies in a run of the full diagonal, so later anchors never mark a cell wrongly |
| Lines.TwinsSameRuns | virtualenv/src/columns_game.py:416-430 | boards that differ only by marking have the same horizontal, vertical and diagonal runs |
| Compaction.DropRests | virtualenv/src/columns_game.py:261-266 | the dropped cell comes to rest on the first solid cell below it: it passed only unoccupied cells, the rows it left are cleared, and nothing below it moved |
| Compaction.MoveDownIsMoveCell | virtualenv/src/columns_game.py:265 | the column step of the gravity loop is `_move_cell(row, column, down)` on the board |
| Compaction.Drop | virtualenv/src/columns_game.py:261-266 | the inner gravity loop creates only cleared cells and occupied cells taken from the column, and leaves the rows above the dropped cell alone |
| Compaction.Gravity | virtualenv/src/columns_game.py:250-266 | gravity keeps the board's shape, never moves a faller or matching cell (any such cell afterwards was there before), and keeps the blank-iff-empty invariant |
| Compaction.GravityIsCompact | virtualenv/src/columns_game.py:250-266 | on a column of only occupied and empty cells, gravity equals the reference compaction |
| Compaction.GravityColumnProperties | virtualenv/src/columns_game.py:250-266 | on such a column, gravity keeps the top-to-bottom jewel sequence, leaves every occupied cell resting on an occupied cell or the bottom, and changes nothing when applied again |
| Compaction.GravityBoardProperties | virtualenv/src/columns_game.py:250-266 | the same three properties for a whole board of occupied and empty cells |
| Compaction.GravityKeepsFaller | virtualenv/src/columns_game.py:258-259 | a faller cell with no occupied cell above it in its column is left in place |
| Compaction.GravityBoardKeepsFaller | virtualenv/src/columns_game.py:254-266 | the board-level form: such a faller cell keeps its position and value |
| Matching.MatchHorizontal | virtualenv/src/columns_game.py:287-322 | after the row loop, a cell is marked exactly when it is in a horizontal run of the board the scan started from; nothing else changes |
| Matching.ScanColumn | virtualenv/src/columns_game.py:329-360 | one column of the vertical scan extends the loop invariant: columns scanned so far are marked exactly at their vertical runs |
| Matching.MatchVertical | virtualenv/src/columns_game.py:325-360 | a cell is marked exactly when it is in a vertical run; nothing else changes |
| Matching.AnchorStep | virtualenv/src/columns_game.py:369-412 | the walk from one anchor keeps the diagonal loop invariant: only diagonal-run cells are marked, and every run whose diagonal starts at a scanned anchor is marked |
| Matching.MatchDiagonal | virtualenv/src/columns_game.py:364-412 | a cell is marked exactly when it is in a "/" diagonal run; runs along "\" are never marked |
| Matching.ClearMatching | virtualenv/src/columns_game.py:274-277 | every matching cell, and only those, becomes (blank, empty) |
| Matching.Collapsed | virtualenv/src/columns_game.py:274-279 | after clearing and gravity, no cell of the board is in the matching state |
| Matching.LaterScansSeeSameRuns | virtualenv/src/columns_game.py:281-283 | the vertical and diagonal scans, run on boards the earlier scans already marked, find the same runs as on the settled board |
| Matching.ThreeScansResolve | virtualenv/src/columns_game.py:281-283 | running the horizontal, vertical and diagonal scans one after another, each on the board the previous scan produced, gives the one-step description: a cell of the settled board is marked exactly when it is in some run |
| Matching.ResolveMarksRuns | virtualenv/src/columns_game.py:270-283 | the pass keeps every jewel of the settled board and makes a cell matching exactly when it lies in a run; other cells stay as gravity left them |
| Matching.MatchingPass | virtualenv/src/columns_game.py:270-283 | `_matching` as written (clear, gravity, three scans) equals the cell-by-cell description of runs on the settled board |
| Matching.ResolveConsistent | virtualenv/src/columns_game.py:270-283 | a matching pass keeps the blank-iff-empty invariant |
| Game.NewGame | virtualenv/src/columns_game.py:26-44 | a new game has no active faller and a board of the given size with every cell empty |
| Game.WriteSegments | virtualenv/src/columns_game.py:449-455 | the faller's visible segments get its jewels with the given state, segments above the board are skipped, no other cell changes, and the invariant is kept for non-blank jewels |
| Game.WriteSegmentsCellByCell | virtualenv/src/columns_game.py:449-455 | the segment writer equals three `_cell` writes, bottom segment first |
| Game.UpdateFallerState | virtualenv/src/columns_game.py:434-455 | the faller stops exactly when the cell below its bottom segment is solid, is redrawn with the matching tag, and no cell outside its three positions changes |
| Game.GenerateFaller | virtualenv/src/columns_game.py:101-117 | a no-op while a faller is active; otherwise the faller is active at row 0, column `column-1`, with the given jewels, stopped exactly when the cell below is solid, and only cell (0, column-1) changes |
| Game.Rotated | virtualenv/src/columns_game.py:136-140 | jewels (a, b, c) become (b, c, a), and real jewels stay real |
| Game.WriteContentsCellByCell | virtualenv/src/columns_game.py:142-143 | the rotation's rewrite equals three `_cell_contents` writes |
| Game.Rotate | virtualenv/src/columns_game.py:129-145 | a no-op without an active faller; otherwise only the jewels cycle and the motion is rechecked; row and column stay, only the faller's cells change, and the invariant is kept |
| Game.ShiftSegmentsCellByCell | virtualenv/src/columns_game.py:171-175 | moving the segments a column over equals the `_move_cell` calls made bottom segment first |
| Game.MoveSide | virtualenv/src/columns_game.py:149-179 | a no-op without an active faller, at the edge, or when the target column holds an occupied cell at one of the faller's visible rows; otherwise the faller moves exactly one column, its old rows are emptied, it is redrawn there, and nothing else changes |
| Game.ShiftThenUpdateMotion | virtualenv/src/columns_game.py:162-179 | after a sideways move the faller stops exactly when the cell below its bottom in the target column was already solid |
| Game.Descend | virtualenv/src/columns_game.py:480-493 | each segment moves down one row, a segment entering the board appears at row 0 as moving, the old top row is emptied, and nothing else changes |
| Game.DescendCellByCell | virtualenv/src/columns_game.py:480-493 | the descent equals the source's `_move_cell` and `_cell` calls in each of its three cases (all segments visible, top entering, middle entering) |
| Game.DescendKeepsConsistent | virtualenv/src/columns_game.py:480-493 | a descent keeps the blank-iff-empty invariant when the faller's jewels are real jewels |
| Game.MoveFallerDown | virtualenv/src/columns_game.py:473-495 | nothing changes when the cell below the bottom segment is solid; otherwise the row grows by exactly one and the board is the descended board |
| Lifecycle.LockFaller | virtualenv/src/columns_game.py:83-85 | the visible segments become occupied cells holding the faller's jewels, rows above the board are skipped, and nothing else changes |
| Lifecycle.LockAfterUpdate | virtualenv/src/columns_game.py:74-84 | for a faller still supported, the re-check changes neither the faller nor the locked board |
| Lifecycle.Fall | virtualenv/src/columns_game.py:73-93 | a tick that does not lock keeps the faller active and drawn in the same column with the same jewels, one row lower exactly when the cell below was not solid; its motion flag then says whether the cell below its new position is solid; no cell outside its column window `row-2..row+1` changes |
| Lifecycle.Clock | virtualenv/src/columns_game.py:69-97 | it reports top-out exactly when it locks a faller whose row is below 2; a lock deactivates the faller and writes it as occupied; otherwise the faller falls; every path ends with one matching pass; the blank-iff-empty invariant is kept on every tick, including ticks without an active faller; after a tick that does not lock, the faller is still drawn whenever nothing occupied lies above its top segment |
| Lifecycle.LoadCell | virtualenv/src/columns_game.py:56-62 | the loaded cell holds the supplied value as its contents; its state is empty for the blank value and occupied for any other value |
| Lifecycle.Load | virtualenv/src/columns_game.py:54-62 | every cell is loaded from `contents[row][column]`, and a grid larger than the board is read only in its top-left rows × columns part; the board has only occupied and empty cells and satisfies the invariant |
| Lifecycle.LoadContents | virtualenv/src/columns_game.py:48-65 | the faller is untouched; each loaded column is compacted; the pass's own clear-and-gravity step then changes nothing more; the result is one pass of run marking on the compacted board |
| Lifecycle.SameDrawing | virtualenv/src/columns_game.py:434-455 | two drawn states with the same faller that agree off its three cells are the same state |
| Lifecycle.RotationKeepsSupport | virtualenv/src/columns_game.py:129-145 | a rotation leaves the faller's position and the cell below it unchanged |
| Lifecycle.RotateThrice | virtualenv/src/columns_game.py:129-145 | three rotations of a drawn faller whose motion flag is current give back exactly the original game state |
| Lifecycle.MovedBackAllowed | virtualenv/src/columns_game.py:156-169 | after a sideways move, the move back is neither at an edge nor blocked |
| Lifecycle.MoveSideAndBack | virtualenv/src/columns_game.py:149-179 | a move sideways and then back returns the faller to its place; when the target column was vacant, the whole game state is restored |
| Lifecycle.DescentKeepsDrawn | virtualenv/src/columns_game.py:473-495 | after a moving faller descends, its visible segments are still drawn at the new position |
| Lifecycle.ResolveKeepsFallerCell | virtualenv/src/columns_game.py:270-283 | a faller cell with nothing occupied above it in its column comes through a matching pass unchanged |
| Lifecycle.UnburiedStaysDrawn | virtualenv/src/columns_game.py:254-266 | a drawn faller with nothing occupied above its top segment stays drawn on any board that keeps every such faller cell |
| Lifecycle.ResolveKeepsDrawn | virtualenv/src/columns_game.py:270-283 | a drawn faller with nothing occupied above its top segment is still drawn after a matching pass |

## Left out

- Rendering, input, sound and the frame loop of `virtualenv/src/columns_pygame.py` are not part of this model. Their only effect on the engine is which operation runs next.
- Random jewel and column choice is in the caller. The spawn column and the three jewels are parameters of `Game.GenerateFaller`.
- The accessors are not separate members: `active_faller`, `number_of_rows`, `number_of_columns`, `current_cell_state` and `current_cell_contents`, and the `Faller` methods `row_value`, `column_value`, `assign_row` and `assign_column`. They become field reads and updates of the `GameState` and `Faller` values, and `Boards.Get`.
- String state tags become the `CellState` datatype, and the faller's 0/1 motion flag becomes the `Motion` datatype.
- Direction codes become the `Direction` datatype. The source silently ignores a direction other than left or right (lines 156-157); with two constructors that case cannot arise.
- Reads at negative rows are not modelled. Python would wrap them to the bottom of the board. Reads require in-range positions, and the source only reads at rows it has already checked.
- The `is empty` identity test of `board_contents` (line 58) is modelled as value equality with the blank marker.
- Each scanner marks a line after scanning all of it, not during the scan. This gives the same result because a mark only lands on positions the scan has already passed, and marking never changes what is matchable. The `Marking` lemmas show that each `_mark_matched_cells` call equals one marked range of the line.
- Scanner.ScanLine: cell contents are single characters, and the scanners' `none` sentinel (line 19) is the `NoJewel` constructor, which equals no cell's contents. In the source, contents are strings, and a loaded string `'none'` would equal the sentinel. Take a row [faller 'S', occupied 'none', occupied 'none']: the reset after the faller cell (lines 319-321) leaves `matches` at 1, the two 'none' cells count it up to 3, and the last-column branch (lines 305-307) marks all three cells, the faller cell included. The model does not reproduce this collision.
- `clock`'s top-out result is computed before the lock is written, as in the source. `Lifecycle.Clock` states it for the tick that locks; the faller's later behaviour after top-out is up to the caller.
- Game.GenerateFaller: requires `1 <= column <= columns`, a board with at least one row, and three jewels. The source would index out of range, or wrap a column of 0 to the last column, otherwise.
- Lifecycle.Load: requires a grid of at least `rows` lists of at least `columns` values each. For a smaller grid the source raises IndexError at `contents[row][column]` (line 56) after it has already written the cells read before that point; the model promises nothing about that error or the partly written board.
- Lifecycle.LoadContents: has the same requires as `Lifecycle.Load`, for the same reason. The short-grid IndexError and the partial write that comes before it are not modelled.
- Compaction.GravityColumnProperties: the symbol-order, resting and idempotence properties are stated only for columns without faller or matching cells. Gravity is called after matching cells are cleared. A faller cell is never moved (`Compaction.Gravity`), but an occupied cell above it falls through it, as written in the source.

## Notes on the source

- In `board_contents`, a run found right after loading is left in the matching state. It is cleared only by the next matching pass, as `_matching` runs once (lines 64-65, 270-283).
- `_solid_faller` treats only occupied cells as solid (lines 459-469). So in `_gravity` an occupied cell with a faller cell below it keeps moving down and overwrites the faller cell with `_move_cell` (lines 264-265). The model keeps this behaviour as written. `Compaction.GravityBoardKeepsFaller` states the case where the faller survives: nothing occupied above it. `Lifecycle.ResolveKeepsDrawn` lifts this to a whole matching pass, and `Lifecycle.Clock` to a whole tick.

=== FILE: boards.dfy ===
/** The fixed-size board and its single-cell writers.  The grid is stored
    column by column, `cells[c][r]`, with row 0 at the top; all reads go
    through `Get`. */
module Boards {
  import opened Cells

  datatype Board = Board(rows: nat, columns: nat, cells: seq<seq<Cell>>) {
    predicate Valid() {
      |cells| == columns && forall c :: 0 <= c < columns ==> |cells[c]| == rows
    }
  }

  /** A sideways direction of a faller move. */
  datatype Direction = Left | Right

  function Delta(d: Direction): (k: int) {
    if d == Left then -1 else 1
  }

  /** The two ways `_move_cell` moves a cell. */
  datatype Move = Down | Sideways(dir: Direction)

  predicate InBounds(b: Board, r: int, c: int) {
    0 <= r < b.rows && 0 <= c < b.columns
  }

  predicate SameShape(b: Board, b': Board) {
    b'.Valid() && b'.rows == b.rows && b'.columns == b.columns
  }

  function Get(b: Board, r: int, c: int): (x: Cell)
    requires b.Valid() && InBounds(b, r, c)
  {
    b.cells[c][r]
  }

  /** Every cell of the board satisfies the blank-iff-empty invariant. */
  ghost predicate AllConsistent(b: Board)
    requires b.Valid()
  {
    forall r, c :: InBounds(b, r, c) ==> Consistent(Get(b, r, c))
  }

  /** A freshly constructed board: every cell empty. */
  function NewBoard(rows: nat, columns: nat): (b: Board)
    ensures b.Valid() && b.rows == rows && b.columns == columns
    ensures forall r, c :: InBounds(b, r, c) ==> Get(b, r, c) == EmptyCellValue
  {
    Board(rows, columns, seq(columns, _ => seq(rows, _ => EmptyCellValue)))
  }

  /** Overwrites one cell; rows above the board (negative) are ignored. */
  function Put(b: Board, r: int, c: int, x: Cell): (b': Board)
    requires b.Valid() && r < b.rows && 0 <= c < b.columns
    ensures SameShape(b, b')
    ensures r < 0 ==> b' == b
    ensures r >= 0 ==> Get(b', r, c) == x
    ensures forall r2, c2 :: InBounds(b, r2, c2) && (r2 != r || c2 != c) ==> Get(b', r2, c2) == Get(b, r2, c2)
  {
    if r < 0 then b else b.(cells := b.cells[c := b.cells[c][r := x]])
  }

  /** `_cell_contents`: rewrites the contents only. */
  function SetContents(b: Board, r: int, c: int, ch: char): (b': Board)
    requires b.Valid() && r < b.rows && 0 <= c < b.columns
    ensures SameShape(b, b')
    ensures r < 0 ==> b' == b
    ensures r >= 0 ==> Get(b', r, c) == Cell(ch, Get(b, r, c).state)
    ensures forall r2, c2 :: InBounds(b, r2, c2) && (r2 != r || c2 != c) ==> Get(b', r2, c2) == Get(b, r2, c2)
  {
    if r < 0 then b else Put(b, r, c, Get(b, r, c).(contents := ch))
  }

  /** `_cell_state`: rewrites the state only. */
  function SetState(b: Board, r: int, c: int, s: CellState): (b': Board)
    requires b.Valid() && r < b.rows && 0 <= c < b.columns
    ensures SameShape(b, b')
    ensures r < 0 ==> b' == b
    ensures r >= 0 ==> Get(b', r, c) == Cell(Get(b, r, c).contents, s)
    ensures forall r2, c2 :: InBounds(b, r2, c2) && (r2 != r || c2 != c) ==> Get(b', r2, c2) == Get(b, r2, c2)
  {
    if r < 0 then b else Put(b, r, c, Get(b, r, c).(state := s))
  }

  /** `_cell`: the contents writer followed by the state writer. */
  function SetCell(b: Board, r: int, c: int, ch: char, s: CellState): (b': Board)
    requires b.Valid() && r < b.rows && 0 <= c < b.columns
    ensures SameShape(b, b')
    ensures r < 0 ==> b' == b
    ensures r >= 0 ==> Get(b', r, c) == Cell(ch, s)
    ensures forall r2, c2 :: InBounds(b, r2, c2) && (r2 != r || c2 != c) ==> Get(b', r2, c2) == Get(b, r2, c2)
    ensures AllConsistent(b) && Consistent(Cell(ch, s)) ==> AllConsistent(b')
  {
    SetState(SetContents(b, r, c, ch), r, c, s)
  }

  /** The position `_move_cell` copies a cell to. */
  function Target(r: int, c: int, m: Move): (t: (int, int)) {
    match m
    case Down => (r + 1, c)
    case Sideways(d) => (r, c + Delta(d))
  }

  /** `_move_cell`: empties the source and copies its old value to the neighbour. */
  function MoveCell(b: Board, r: int, c: int, m: Move): (b': Board)
    requires b.Valid() && InBounds(b, r, c) && InBounds(b, Target(r, c, m).0, Target(r, c, m).1)
    ensures SameShape(b, b')
    ensures Get(b', r, c) == EmptyCellValue
    ensures Get(b', Target(r, c, m).0, Target(r, c, m).1) == Get(b, r, c)
    ensures forall r2, c2 :: InBounds(b, r2, c2) && (r2 != r || c2 != c) && (r2, c2) != Target(r, c, m) ==>
              Get(b', r2, c2) == Get(b, r2, c2)
    ensures AllConsistent(b) ==> AllConsistent(b')
  {
    var t := Target(r, c, m);
    Put(Put(b, r, c, EmptyCellValue), t.0, t.1, Get(b, r, c))
  }

  /** `_solid_faller`: below the last row, or an occupied cell.  Empty, faller
      and matching cells do not hold a faller up. */
  predicate Solid(b: Board, r: int, c: int): (s: bool)
    requires b.Valid() && 0 <= r && 0 <= c < b.columns
    ensures r >= b.rows ==> s
    ensures r < b.rows && Get(b, r, c).state == Occupied ==> s
    ensures r < b.rows && (Get(b, r, c).state in {EmptyCell, FallerMoving, FallerStopped, Matching}) ==> !s
  {
    r >= b.rows || Get(b, r, c).state == Occupied
  }
  /** Boards of one shape that agree at every position are equal. */
  lemma BoardsEqual(a: Board, b: Board)
    requires a.Valid() && SameShape(a, b)
    requires forall r, c :: InBounds(a, r, c) ==> Get(a, r, c) == Get(b, r, c)
    ensures a == b
  {
    forall c | 0 <= c < a.columns
      ensures a.cells[c] == b.cells[c]
    {
      forall r | 0 <= r < a.rows
        ensures a.cells[c][r] == b.cells[c][r]
      {
        assert Get(a, r, c) == Get(b, r, c);
      }
    }
  }
}

=== FILE: cells.dfy ===
/** The cell model of the Columns board: every position holds a symbol (or the
    blank marker) together with one of five state tags. */
module Cells {

  /** The five cell state tags. */
  datatype CellState = EmptyCell | FallerMoving | FallerStopped | Occupied | Matching

  /** The blank contents marker carried by empty cells. */
  const Blank: char := ' '

  /** One board position. */
  datatype Cell = Cell(contents: char, state: CellState)

  /** The value every writer uses to clear a position. */
  const EmptyCellValue: Cell := Cell(Blank, EmptyCell)

  /** Cells that take part in a match scan: occupied or already matching.
      Faller cells and empty cells never do. */
  predicate Matchable(s: CellState): (m: bool)
    ensures m <==> !IsFaller(s) && s != EmptyCell
  {
    s == Occupied || s == Matching
  }

  /** Cells belonging to the active faller. */
  predicate IsFaller(s: CellState) {
    s == FallerMoving || s == FallerStopped
  }

  /** The global cell invariant: the contents are blank exactly when the state is empty. */
  predicate Consistent(x: Cell) {
    x.contents == Blank <==> x.state == EmptyCell
  }
}

=== FILE: game.dfy ===
/** `GameState` and `Faller`: the faller lifecycle on top of the board. */
module Game {
  import opened Cells
  import opened Boards
  import opened Compaction
  import opened Lines
  import opened Matching

  /** The faller's own moving/stopped flag. */
  datatype Motion = Moving | Stopped

  /** The falling three-symbol piece.  `row` and `column` locate the bottom
      segment (`contents[0]`); segment `i` sits at row `row - i`, and a negative
      row means that segment has not yet come onto the board. */
  datatype Faller = Faller(active: bool, row: int, column: int, contents: seq<char>, motion: Motion)

  datatype GameState = GameState(board: Board, faller: Faller)

  /** The faller a new game starts with: inactive, three blanks. */
  const IdleFaller: Faller := Faller(false, 0, 0, [Blank, Blank, Blank], Moving)

  predicate Valid(g: GameState) {
    g.board.Valid() && |g.faller.contents| == 3 &&
    (g.faller.active ==> 0 <= g.faller.row < g.board.rows && 0 <= g.faller.column < g.board.columns)
  }

  /** Faller symbols are real symbols, never the blank marker. */
  predicate NonBlank(s: seq<char>) {
    forall i :: 0 <= i < |s| ==> s[i] != Blank
  }

  /** The cell state that shows a faller's motion. */
  function Tag(m: Motion): (s: CellState) {
    if m == Moving then FallerMoving else FallerStopped
  }

  /** Every visible segment of the active faller is on the board with the
      faller's contents and state tag. */
  ghost predicate Drawn(g: GameState)
    requires Valid(g)
  {
    g.faller.active ==>
      forall i :: 0 <= i < 3 && g.faller.row - i >= 0 ==>
        Get(g.board, g.faller.row - i, g.faller.column) == Cell(g.faller.contents[i], Tag(g.faller.motion))
  }

  /** The positions a faller at (`row`, `col`) can cover. */
  predicate Segment(r: int, c: int, row: int, col: int) {
    c == col && row - 2 <= r <= row
  }

  /** `GameState(rows, columns)`: an empty board and an idle faller. */
  function NewGame(rows: nat, columns: nat): (g: GameState)
    ensures Valid(g) && !g.faller.active && g.board.rows == rows && g.board.columns == columns
    ensures forall r, c :: InBounds(g.board, r, c) ==> Get(g.board, r, c) == EmptyCellValue
  {
    GameState(NewBoard(rows, columns), IdleFaller)
  }

  /** Writes the three segments of a faller at (`row`, `col`) with state `s`,
      skipping segments above the board. */
  function WriteSegments(b: Board, row: int, col: int, contents: seq<char>, s: CellState): (b': Board)
    requires b.Valid() && row < b.rows && 0 <= col < b.columns && |contents| == 3
    ensures SameShape(b, b')
    ensures forall i :: 0 <= i < 3 && row - i >= 0 ==> Get(b', row - i, col) == Cell(contents[i], s)
    ensures forall r, c :: InBounds(b, r, c) && !Segment(r, c, row, col) ==> Get(b', r, c) == Get(b, r, c)
    ensures AllConsistent(b) && NonBlank(contents) && s != EmptyCell ==> AllConsistent(b')
  {
    b.(cells := b.cells[col := seq(b.rows, r requires 0 <= r < b.rows =>
      if row - 2 <= r <= row then Cell(contents[row - r], s) else b.cells[col][r])])
  }

  /** `WriteSegments` is the loop of `_cell` writes, bottom segment first. */
  lemma WriteSegmentsCellByCell(b: Board, row: int, col: int, contents: seq<char>, s: CellState)
    requires b.Valid() && row < b.rows && 0 <= col < b.columns && |contents| == 3
    ensures WriteSegments(b, row, col, contents, s) ==
      SetCell(SetCell(SetCell(b, row, col, contents[0], s), row - 1, col, contents[1], s), row - 2, col, contents[2], s)
  {
    var x := WriteSegments(b, row, col, contents, s);
    var y := SetCell(SetCell(SetCell(b, row, col, contents[0], s), row - 1, col, contents[1], s), row - 2, col, contents[2], s);
    forall r, c | InBounds(b, r, c)
      ensures Get(x, r, c) == Get(y, r, c)
    {
      if Segment(r, c, row, col) {
        var i := row - r;
        assert Get(x, row - i, col) == Cell(contents[i], s);
      }
    }
    BoardsEqual(x, y);
  }

  /** `_update_faller_state`: the faller stops exactly when the cell below its
      bottom segment is solid, and its visible segments are redrawn to show it. */
  function UpdateFallerState(g: GameState): (g': GameState)
    requires Valid(g) && g.faller.active
    ensures Valid(g') && Drawn(g')
    ensures g'.faller == g.faller.(motion := if Solid(g.board, g.faller.row + 1, g.faller.column) then Stopped else Moving)
    ensures SameShape(g.board, g'.board)
    ensures forall r, c :: InBounds(g.board, r, c) && !Segment(r, c, g.faller.row, g.faller.column) ==>
      Get(g'.board, r, c) == Get(g.board, r, c)
    ensures AllConsistent(g.board) && (g.faller.active ==> NonBlank(g.faller.contents)) ==> AllConsistent(g'.board)
  {
    var f := g.faller;
    var m := if Solid(g.board, f.row + 1, f.column) then Stopped else Moving;
    GameState(WriteSegments(g.board, f.row, f.column, f.contents, Tag(m)), f.(motion := m))
  }

  /** Redrawing the faller over a board that differs from a consistent one only
      at the faller's segments gives a consistent board. */
  lemma RedrawKeepsConsistent(b0: Board, g: GameState)
    requires Valid(g) && g.faller.active && b0.Valid() && SameShape(b0, g.board)
    requires forall r, c :: InBounds(b0, r, c) && !Segment(r, c, g.faller.row, g.faller.column) ==>
      Get(g.board, r, c) == Get(b0, r, c)
    ensures AllConsistent(b0) && NonBlank(g.faller.contents) ==> AllConsistent(UpdateFallerState(g).board)
  {
    var f := g.faller;
    var b' := UpdateFallerState(g).board;
    if AllConsistent(b0) && NonBlank(f.contents) {
      forall r, c | InBounds(b', r, c)
        ensures Consistent(Get(b', r, c))
      {
        if Segment(r, c, f.row, f.column) {
          var i := f.row - r;
          assert Get(b', f.row - i, f.column) == Cell(f.contents[i], Tag(UpdateFallerState(g).faller.motion));
        } else {
          assert Get(b', r, c) == Get(b0, r, c);
        }
      }
    }
  }

  /** `generate_faller`: ignored while a faller is active; otherwise a faller
      appears with its bottom segment in row 0 of the (1-based) `column`. */
  function GenerateFaller(g: GameState, column: int, contents: seq<char>): (g': GameState)
    requires Valid(g)
    requires !g.faller.active ==> |contents| == 3 && 1 <= column <= g.board.columns && 1 <= g.board.rows
    ensures Valid(g')
    ensures g.faller.active ==> g' == g
    ensures !g.faller.active ==>
      && g'.faller.active && g'.faller.row == 0 && g'.faller.column == column - 1
      && g'.faller.contents == contents
      && (g'.faller.motion == Stopped <==> Solid(g.board, 1, column - 1))
      && Get(g'.board, 0, column - 1) == Cell(contents[0], Tag(g'.faller.motion))
      && Drawn(g')
      && SameShape(g.board, g'.board)
      && forall r, c :: InBounds(g.board, r, c) && (r, c) != (0, column - 1) ==> Get(g'.board, r, c) == Get(g.board, r, c)
    ensures AllConsistent(g.board) && NonBlank(contents) ==> AllConsistent(g'.board)
  {
    if g.faller.active then g
    else
      var f := g.faller.(active := true, contents := contents, row := 0, column := column - 1);
      var b := SetCell(g.board, 0, column - 1, contents[0], FallerMoving);
      UpdateFallerState(GameState(b, f))
  }

  /** The contents after one rotation: (a, b, c) becomes (b, c, a). */
  function Rotated(s: seq<char>): (s': seq<char>)
    requires |s| == 3
    ensures |s'| == 3 && s'[0] == s[1] && s'[1] == s[2] && s'[2] == s[0]
    ensures NonBlank(s) ==> NonBlank(s')
  {
    [s[1], s[2], s[0]]
  }

  /** Rewrites the contents of the visible segments (`_cell_contents` in a loop). */
  function WriteContents(b: Board, row: int, col: int, contents: seq<char>): (b': Board)
    requires b.Valid() && row < b.rows && 0 <= col < b.columns && |contents| == 3
    ensures SameShape(b, b')
    ensures forall i :: 0 <= i < 3 && row - i >= 0 ==>
      Get(b', row - i, col) == Cell(contents[i], Get(b, row - i, col).state)
    ensures forall r, c :: InBounds(b, r, c) && !Segment(r, c, row, col) ==> Get(b', r, c) == Get(b, r, c)
  {
    b.(cells := b.cells[col := seq(b.rows, r requires 0 <= r < b.rows =>
      if row - 2 <= r <= row then Cell(contents[row - r], b.cells[col][r].state) else b.cells[col][r])])
  }

  /** `WriteContents` is the loop of `_cell_contents` writes in `rotate`. */
  lemma WriteContentsCellByCell(b: Board, row: int, col: int, contents: seq<char>)
    requires b.Valid() && row < b.rows && 0 <= col < b.columns && |contents| == 3
    ensures WriteContents(b, row, col, contents) ==
      SetContents(SetContents(SetContents(b, row, col, contents[0]), row - 1, col, contents[1]), row - 2, col, contents[2])
  {
    var x := WriteContents(b, row, col, contents);
    var y := SetContents(SetContents(SetContents(b, row, col, contents[0]), row - 1, col, contents[1]), row - 2, col, contents[2]);
    forall r, c | InBounds(b, r, c)
      ensures Get(x, r, c) == Get(y, r, c)
    {
      if Segment(r, c, row, col) {
        var i := row - r;
        assert Get(x, row - i, col) == Cell(contents[i], Get(b, row - i, col).state);
      }
    }
    BoardsEqual(x, y);
  }

  /** `rotate`: cycles the contents in place; position never changes. */
  function Rotate(g: GameState): (g': GameState)
    requires Valid(g)
    ensures Valid(g')
    ensures !g.faller.active ==> g' == g
    ensures g.faller.active ==>
      && g'.faller == g.faller.(contents := Rotated(g.faller.contents),
                                motion := if Solid(g.board, g.faller.row + 1, g.faller.column) then Stopped else Moving)
      && Drawn(g')
      && SameShape(g.board, g'.board)
      && forall r, c :: InBounds(g.board, r, c) && !Segment(r, c, g.faller.row, g.faller.column) ==>
           Get(g'.board, r, c) == Get(g.board, r, c)
    ensures AllConsistent(g.board) && (g.faller.active ==> NonBlank(g.faller.contents)) ==> AllConsistent(g'.board)
  {
    if !g.faller.active then g
    else
      var f := g.faller.(contents := Rotated(g.faller.contents));
      RotatedFaller(g);
      RotatedFrame(g);
      RotatedKeepsConsistent(g);
      UpdateFallerState(GameState(WriteContents(g.board, f.row, f.column, f.contents), f))
  }

  /** The rotated faller, redrawn, keeps its place and its support. */
  lemma RotatedFaller(g: GameState)
    requires Valid(g) && g.faller.active
    ensures var f := g.faller.(contents := Rotated(g.faller.contents));
      var g' := UpdateFallerState(GameState(WriteContents(g.board, f.row, f.column, f.contents), f));
      g'.faller == g.faller.(contents := Rotated(g.faller.contents),
                             motion := if Solid(g.board, g.faller.row + 1, g.faller.column) then Stopped else Moving)
  {
    var f := g.faller.(contents := Rotated(g.faller.contents));
    var g' := UpdateFallerState(GameState(WriteContents(g.board, f.row, f.column, f.contents), f));
    RotatedSupport(g);
    var m := if Solid(g.board, g.faller.row + 1, g.faller.column) then Stopped else Moving;
    assert g'.faller == f.(motion := m);
    assert f.(motion := m) == g.faller.(contents := Rotated(g.faller.contents), motion := m);
  }

  /** Rotating and redrawing changes only the faller's own cells. */
  lemma RotatedFrame(g: GameState)
    requires Valid(g) && g.faller.active
    ensures var f := g.faller.(contents := Rotated(g.faller.contents));
      var g' := UpdateFallerState(GameState(WriteContents(g.board, f.row, f.column, f.contents), f));
      SameShape(g.board, g'.board) &&
      forall r, c :: InBounds(g.board, r, c) && !Segment(r, c, g.faller.row, g.faller.column) ==>
        Get(g'.board, r, c) == Get(g.board, r, c)
  {
    var f := g.faller.(contents := Rotated(g.faller.contents));
    var b := WriteContents(g.board, f.row, f.column, f.contents);
    var g' := UpdateFallerState(GameState(b, f));
    forall r, c | InBounds(g.board, r, c) && !Segment(r, c, f.row, f.column)
      ensures Get(g'.board, r, c) == Get(g.board, r, c)
    {
      assert Get(g'.board, r, c) == Get(b, r, c);
    }
  }

  /** Rewriting the faller's symbols leaves the cell below it alone, so the
      rotated faller is supported exactly when the original was. */
  lemma RotatedSupport(g: GameState)
    requires Valid(g) && g.faller.active
    ensures var f := g.faller;
      Solid(WriteContents(g.board, f.row, f.column, Rotated(f.contents)), f.row + 1, f.column) == Solid(g.board, f.row + 1, f.column)
  {
    var f := g.faller;
    var b := WriteContents(g.board, f.row, f.column, Rotated(f.contents));
    assert !Segment(f.row + 1, f.column, f.row, f.column);
    if f.row + 1 < g.board.rows {
      assert Get(b, f.row + 1, f.column) == Get(g.board, f.row + 1, f.column);
    }
  }

  /** The rotated and redrawn board keeps the blank-iff-empty invariant. */
  lemma RotatedKeepsConsistent(g: GameState)
    requires Valid(g) && g.faller.active
    ensures var f := g.faller.(contents := Rotated(g.faller.contents));
      AllConsistent(g.board) && (g.faller.active ==> NonBlank(g.faller.contents)) ==>
        AllConsistent(UpdateFallerState(GameState(WriteContents(g.board, f.row, f.column, f.contents), f)).board)
  {
    var f := g.faller.(contents := Rotated(g.faller.contents));
    RedrawKeepsConsistent(g.board, GameState(WriteContents(g.board, f.row, f.column, f.contents), f));
  }

  /** The faller cannot move further in direction `d`. */
  predicate AtEdge(g: GameState, d: Direction) {
    (d == Left && g.faller.column == 0) || (d == Right && g.faller.column == g.board.columns - 1)
  }

  /** Some visible segment row of column `col` holds an occupied cell. */
  predicate Blocked(b: Board, row: int, col: int)
    requires b.Valid() && row < b.rows && 0 <= col < b.columns
  {
    exists r :: 0 <= r && row - 2 <= r <= row && Get(b, r, col).state == Occupied
  }

  /** One `_move_cell` sideways, by row. */
  function ShiftOne(b: Board, r: int, col: int, d: Direction): (b': Board)
    requires b.Valid() && r < b.rows && 0 <= col < b.columns && 0 <= col + Delta(d) < b.columns
    ensures SameShape(b, b')
    ensures r >= 0 ==> Get(b', r, col) == EmptyCellValue && Get(b', r, col + Delta(d)) == Get(b, r, col)
    ensures forall r2, c :: InBounds(b, r2, c) && r2 != r ==> Get(b', r2, c) == Get(b, r2, c)
    ensures forall c :: 0 <= r && 0 <= c < b.columns && c != col && c != col + Delta(d) ==> Get(b', r, c) == Get(b, r, c)
  {
    if r < 0 then b else MoveCell(b, r, col, Sideways(d))
  }

  /** Moves the visible segments one column over (`_move_cell` in a loop). */
  function ShiftSegments(b: Board, row: int, col: int, d: Direction): (b': Board)
    requires b.Valid() && 0 <= row < b.rows && 0 <= col < b.columns && 0 <= col + Delta(d) < b.columns
    ensures SameShape(b, b')
    ensures forall r :: 0 <= r && row - 2 <= r <= row ==>
      Get(b', r, col) == EmptyCellValue && Get(b', r, col + Delta(d)) == Get(b, r, col)
    ensures forall r, c :: InBounds(b, r, c) && !Segment(r, c, row, col) && !Segment(r, c, row, col + Delta(d)) ==>
      Get(b', r, c) == Get(b, r, c)
  {
    var t := col + Delta(d);
    b.(cells := seq(b.columns, c requires 0 <= c < b.columns =>
      if c == col then
        seq(b.rows, r requires 0 <= r < b.rows => if row - 2 <= r <= row then EmptyCellValue else b.cells[c][r])
      else if c == t then
        seq(b.rows, r requires 0 <= r < b.rows => if row - 2 <= r <= row then b.cells[col][r] else b.cells[c][r])
      else b.cells[c]))
  }

  /** Moving cells keeps the blank-iff-empty invariant. */
  lemma ShiftSegmentsKeepsConsistent(b: Board, row: int, col: int, d: Direction)
    requires b.Valid() && 0 <= row < b.rows && 0 <= col < b.columns && 0 <= col + Delta(d) < b.columns
    ensures AllConsistent(b) ==> AllConsistent(ShiftSegments(b, row, col, d))
  {
    var b' := ShiftSegments(b, row, col, d);
    if AllConsistent(b) {
      forall r, c | InBounds(b', r, c)
        ensures Consistent(Get(b', r, c))
      {
        if Segment(r, c, row, col + Delta(d)) {
          assert Get(b', r, c) == Get(b, r, col);
        } else if !Segment(r, c, row, col) {
          assert Get(b', r, c) == Get(b, r, c);
        }
      }
    }
  }

  /** What one `ShiftOne` of row `r` from column `col` to column `t` promises. */
  ghost predicate ShiftedAt(b: Board, b': Board, r: int, col: int, t: int)
    requires b.Valid() && r < b.rows && 0 <= col < b.columns && 0 <= t < b.columns
  {
    && SameShape(b, b')
    && (r >= 0 ==> Get(b', r, col) == EmptyCellValue && Get(b', r, t) == Get(b, r, col))
    && (forall r2, c :: InBounds(b, r2, c) && r2 != r ==> Get(b', r2, c) == Get(b, r2, c))
    && (forall c :: 0 <= r && 0 <= c < b.columns && c != col && c != t ==> Get(b', r, c) == Get(b, r, c))
  }

  lemma ShiftOneShifts(b: Board, r: int, col: int, d: Direction)
    requires b.Valid() && r < b.rows && 0 <= col < b.columns && 0 <= col + Delta(d) < b.columns
    ensures ShiftedAt(b, ShiftOne(b, r, col, d), r, col, col + Delta(d))
  {
  }

  /** Three row shifts, bottom row first, move the whole visible segment. */
  lemma ShiftChain(b: Board, b1: Board, b2: Board, y: Board, row: int, col: int, d: Direction)
    requires b.Valid() && 0 <= row < b.rows && 0 <= col < b.columns && 0 <= col + Delta(d) < b.columns
    requires ShiftedAt(b, b1, row, col, col + Delta(d))
    requires b1.Valid() && ShiftedAt(b1, b2, row - 1, col, col + Delta(d))
    requires b2.Valid() && ShiftedAt(b2, y, row - 2, col, col + Delta(d))
    ensures y == ShiftSegments(b, row, col, d)
  {
    var t := col + Delta(d);
    var x := ShiftSegments(b, row, col, d);
    forall r, c | InBounds(b, r, c)
      ensures Get(y, r, c) == Get(x, r, c)
    {
      if r == row {
        assert Get(y, r, c) == Get(b2, r, c) == Get(b1, r, c);
      } else if r == row - 1 {
        assert Get(y, r, c) == Get(b2, r, c);
        assert Get(b1, r, col) == Get(b, r, col) && Get(b1, r, c) == Get(b, r, c);
      } else if r == row - 2 {
        assert Get(b2, r, col) == Get(b1, r, col) == Get(b, r, col);
        assert Get(b2, r, c) == Get(b1, r, c) == Get(b, r, c);
      } else {
        assert Get(y, r, c) == Get(b2, r, c) == Get(b1, r, c) == Get(b, r, c);
      }
    }
    BoardsEqual(x, y);
  }

  /** `ShiftSegments` is the loop of `_move_cell` calls in `move_side`. */
  lemma ShiftSegmentsCellByCell(b: Board, row: int, col: int, d: Direction)
    requires b.Valid() && 0 <= row < b.rows && 0 <= col < b.columns && 0 <= col + Delta(d) < b.columns
    ensures ShiftSegments(b, row, col, d) == ShiftOne(ShiftOne(ShiftOne(b, row, col, d), row - 1, col, d), row - 2, col, d)
  {
    var b1 := ShiftOne(b, row, col, d);
    var b2 := ShiftOne(b1, row - 1, col, d);
    var y := ShiftOne(b2, row - 2, col, d);
    ShiftOneShifts(b, row, col, d);
    ShiftOneShifts(b1, row - 1, col, d);
    ShiftOneShifts(b2, row - 2, col, d);
    ShiftChain(b, b1, b2, y, row, col, d);
  }

  /** `move_side`: a no-op without an active faller, at the edge, or when the
      target column is occupied at a visible segment row; otherwise the faller
      moves exactly one column. */
  function MoveSide(g: GameState, d: Direction): (g': GameState)
    requires Valid(g)
    ensures Valid(g')
    ensures !g.faller.active || AtEdge(g, d) ==> g' == g
    ensures g.faller.active && !AtEdge(g, d) && Blocked(g.board, g.faller.row, g.faller.column + Delta(d)) ==> g' == g
    ensures g.faller.active && !AtEdge(g, d) && !Blocked(g.board, g.faller.row, g.faller.column + Delta(d)) ==>
      && g'.faller == g.faller.(column := g.faller.column + Delta(d),
                                motion := if Solid(g.board, g.faller.row + 1, g.faller.column + Delta(d)) then Stopped else Moving)
      && Drawn(g')
      && SameShape(g.board, g'.board)
      && (forall r :: 0 <= r && g.faller.row - 2 <= r <= g.faller.row ==> Get(g'.board, r, g.faller.column) == EmptyCellValue)
      && (forall r, c :: (InBounds(g.board, r, c) && !Segment(r, c, g.faller.row, g.faller.column)
                          && !Segment(r, c, g.faller.row, g.faller.column + Delta(d))) ==>
            Get(g'.board, r, c) == Get(g.board, r, c))
    ensures AllConsistent(g.board) && (g.faller.active ==> NonBlank(g.faller.contents)) ==> AllConsistent(g'.board)
  {
    if !g.faller.active then g
    else if AtEdge(g, d) then g
    else
      var f := g.faller;
      var target := f.column + Delta(d);
      if Blocked(g.board, f.row, target) then g
      else
        ShiftThenUpdateFrame(g, d);
        ShiftThenUpdateConsistent(g, d);
        ShiftThenUpdateMotion(g, d);
        UpdateFallerState(GameState(ShiftSegments(g.board, f.row, f.column, d), f.(column := target)))
  }

  /** After the shift and redraw the old column's segment rows are empty and no cell
      outside the two columns' segments changed. */
  lemma ShiftThenUpdateFrame(g: GameState, d: Direction)
    requires Valid(g) && g.faller.active && !AtEdge(g, d)
    ensures var f := g.faller;
      var g' := UpdateFallerState(GameState(ShiftSegments(g.board, f.row, f.column, d), f.(column := f.column + Delta(d))));
      && (forall r :: 0 <= r && f.row - 2 <= r <= f.row ==> Get(g'.board, r, f.column) == EmptyCellValue)
      && (forall r, c :: (InBounds(g.board, r, c) && !Segment(r, c, f.row, f.column)
                          && !Segment(r, c, f.row, f.column + Delta(d))) ==>
            Get(g'.board, r, c) == Get(g.board, r, c))
  {
    var f := g.faller;
    var t := f.column + Delta(d);
    var b := ShiftSegments(g.board, f.row, f.column, d);
    var g' := UpdateFallerState(GameState(b, f.(column := t)));
    forall r | 0 <= r && f.row - 2 <= r <= f.row
      ensures Get(g'.board, r, f.column) == EmptyCellValue
    {
      assert !Segment(r, f.column, f.row, t);
    }
    forall r, c | InBounds(g.board, r, c) && !Segment(r, c, f.row, f.column) && !Segment(r, c, f.row, t)
      ensures Get(g'.board, r, c) == Get(g.board, r, c)
    {
      assert Get(g'.board, r, c) == Get(b, r, c);
    }
  }

  /** The shifted and redrawn board keeps the blank-iff-empty invariant. */
  lemma ShiftThenUpdateConsistent(g: GameState, d: Direction)
    requires Valid(g) && g.faller.active && !AtEdge(g, d)
    ensures var f := g.faller;
      var g' := UpdateFallerState(GameState(ShiftSegments(g.board, f.row, f.column, d), f.(column := f.column + Delta(d))));
      AllConsistent(g.board) && NonBlank(f.contents) ==> AllConsistent(g'.board)
  {
    var f := g.faller;
    ShiftSegmentsKeepsConsistent(g.board, f.row, f.column, d);
  }

  /** The shifted faller lands exactly when the cell below its new bottom was solid
      before the move. */
  lemma ShiftThenUpdateMotion(g: GameState, d: Direction)
    requires Valid(g) && g.faller.active && !AtEdge(g, d)
    ensures var f := g.faller;
      var g' := UpdateFallerState(GameState(ShiftSegments(g.board, f.row, f.column, d), f.(column := f.column + Delta(d))));
      g'.faller.motion == if Solid(g.board, f.row + 1, f.column + Delta(d)) then Stopped else Moving
  {
    var f := g.faller;
    var t := f.column + Delta(d);
    var b := ShiftSegments(g.board, f.row, f.column, d);
    assert !Segment(f.row + 1, t, f.row, f.column) && !Segment(f.row + 1, t, f.row, t);
    assert Solid(b, f.row + 1, t) == Solid(g.board, f.row + 1, t);
  }

  /** The descent of a faller whose three segments are all visible. */
  function DescendFull(b: Board, row: int, col: int): (b': Board)
    requires b.Valid() && 2 <= row && row + 1 < b.rows && 0 <= col < b.columns
    ensures SameShape(b, b')
    ensures forall r :: row - 1 <= r <= row + 1 ==> Get(b', r, col) == Get(b, r - 1, col)
    ensures Get(b', row - 2, col) == EmptyCellValue
    ensures forall r, c :: InBounds(b, r, c) && !(c == col && row - 2 <= r <= row + 1) ==> Get(b', r, c) == Get(b, r, c)
  {
    MoveCell(MoveCell(MoveCell(b, row, col, Down), row - 1, col, Down), row - 2, col, Down)
  }

  /** The descent when the top segment is still above the board (bottom at row 1). */
  function DescendTopEnters(b: Board, row: int, col: int, top: char): (b': Board)
    requires b.Valid() && row == 1 && row + 1 < b.rows && 0 <= col < b.columns
    ensures SameShape(b, b')
    ensures Get(b', 2, col) == Get(b, 1, col) && Get(b', 1, col) == Get(b, 0, col)
    ensures Get(b', 0, col) == Cell(top, FallerMoving)
    ensures forall r, c :: InBounds(b, r, c) && !(c == col && 0 <= r <= 2) ==> Get(b', r, c) == Get(b, r, c)
  {
    SetCell(MoveCell(MoveCell(b, row, col, Down), row - 1, col, Down), row - 1, col, top, FallerMoving)
  }

  /** The descent when only the bottom segment is on the board (bottom at row 0). */
  function DescendMiddleEnters(b: Board, row: int, col: int, middle: char): (b': Board)
    requires b.Valid() && row == 0 && row + 1 < b.rows && 0 <= col < b.columns
    ensures SameShape(b, b')
    ensures Get(b', 1, col) == Get(b, 0, col) && Get(b', 0, col) == Cell(middle, FallerMoving)
    ensures forall r, c :: InBounds(b, r, c) && !(c == col && 0 <= r <= 1) ==> Get(b', r, c) == Get(b, r, c)
  {
    SetCell(MoveCell(b, row, col, Down), row, col, middle, FallerMoving)
  }

  /** Column `col` after the descent: the three rows ending at `row + 1` take the
      cell above them, or the entering segment at row 0, and row `row - 2` is emptied. */
  function DescendColumn(b: Board, row: int, col: int, contents: seq<char>): (s: seq<Cell>)
    requires b.Valid() && 0 <= row && row + 1 < b.rows && 0 <= col < b.columns && |contents| == 3
    ensures |s| == b.rows
    ensures forall r :: 0 <= r && row - 1 <= r <= row + 1 ==>
      s[r] == if r >= 1 then Get(b, r - 1, col) else Cell(contents[row + 1 - r], FallerMoving)
    ensures row - 2 >= 0 ==> s[row - 2] == EmptyCellValue
    ensures forall r :: 0 <= r < b.rows && !(row - 2 <= r <= row + 1) ==> s[r] == Get(b, r, col)
  {
    seq(b.rows, r requires 0 <= r < b.rows =>
      if row - 1 <= r <= row + 1 then
        (if r >= 1 then b.cells[col][r - 1] else Cell(contents[row + 1 - r], FallerMoving))
      else if r == row - 2 then EmptyCellValue
      else b.cells[col][r])
  }

  /** The descended column, segment by segment: segment `i` moves from row
      `row - i` to row `row + 1 - i`, or enters the board there. */
  lemma DescendColumnSegments(b: Board, row: int, col: int, contents: seq<char>)
    requires b.Valid() && 0 <= row && row + 1 < b.rows && 0 <= col < b.columns && |contents| == 3
    ensures forall i :: 0 <= i < 3 && row + 1 - i >= 0 ==>
      DescendColumn(b, row, col, contents)[row + 1 - i] ==
        if row - i >= 0 then Get(b, row - i, col) else Cell(contents[i], FallerMoving)
  {
    var s := DescendColumn(b, row, col, contents);
    forall i | 0 <= i < 3 && row + 1 - i >= 0
      ensures s[row + 1 - i] == if row - i >= 0 then Get(b, row - i, col) else Cell(contents[i], FallerMoving)
    {
      var r := row + 1 - i;
      assert s[r] == if r >= 1 then Get(b, r - 1, col) else Cell(contents[row + 1 - r], FallerMoving);
    }
  }

  /** The board after a faller at (`row`, `col`) descends one row. */
  function Descend(b: Board, row: int, col: int, contents: seq<char>): (b': Board)
    requires b.Valid() && 0 <= row && row + 1 < b.rows && 0 <= col < b.columns && |contents| == 3
    ensures SameShape(b, b')
    ensures forall i :: 0 <= i < 3 && row + 1 - i >= 0 ==>
      Get(b', row + 1 - i, col) == if row - i >= 0 then Get(b, row - i, col) else Cell(contents[i], FallerMoving)
    ensures row - 2 >= 0 ==> Get(b', row - 2, col) == EmptyCellValue
    ensures forall r, c :: InBounds(b, r, c) && !(c == col && row - 2 <= r <= row + 1) ==> Get(b', r, c) == Get(b, r, c)
  {
    var s := DescendColumn(b, row, col, contents);
    var b' := b.(cells := b.cells[col := s]);
    DescendColumnSegments(b, row, col, contents);
    assert forall r :: 0 <= r < b.rows ==> Get(b', r, col) == s[r];
    b'
  }

  /** A descent keeps the blank-iff-empty invariant when the entering symbols are real symbols. */
  lemma DescendKeepsConsistent(b: Board, row: int, col: int, contents: seq<char>)
    requires b.Valid() && 0 <= row && row + 1 < b.rows && 0 <= col < b.columns && |contents| == 3
    ensures AllConsistent(b) && NonBlank(contents) ==> AllConsistent(Descend(b, row, col, contents))
  {
    var b' := Descend(b, row, col, contents);
    if AllConsistent(b) && NonBlank(contents) {
      forall r, c | InBounds(b', r, c)
        ensures Consistent(Get(b', r, c))
      {
        if c == col && row - 1 <= r <= row + 1 {
          var i := row + 1 - r;
          assert Get(b', row + 1 - i, col) == if row - i >= 0 then Get(b, row - i, col) else Cell(contents[i], FallerMoving);
        } else if !(c == col && r == row - 2) {
          assert Get(b', r, c) == Get(b, r, c);
        }
      }
    }
  }

  /** `Descend` is the sequence of `_move_cell` and `_cell` calls in `_move_faller_down`. */
  lemma DescendCellByCell(b: Board, row: int, col: int, contents: seq<char>)
    requires b.Valid() && 0 <= row && row + 1 < b.rows && 0 <= col < b.columns && |contents| == 3
    ensures Descend(b, row, col, contents) ==
      if row - 1 >= 0 then
        if row - 2 >= 0 then DescendFull(b, row, col) else DescendTopEnters(b, row, col, contents[2])
      else DescendMiddleEnters(b, row, col, contents[1])
  {
    var x := Descend(b, row, col, contents);
    var y := if row - 1 >= 0 then
        if row - 2 >= 0 then DescendFull(b, row, col) else DescendTopEnters(b, row, col, contents[2])
      else DescendMiddleEnters(b, row, col, contents[1]);
    forall r, c | InBounds(b, r, c)
      ensures Get(x, r, c) == Get(y, r, c)
    {
      if c == col && row - 1 <= r <= row + 1 {
        var i := row + 1 - r;
        assert Get(x, row + 1 - i, col) == Get(y, row + 1 - i, col);
      }
    }
    BoardsEqual(x, y);
  }

  /** `_move_faller_down`: nothing when the cell below the bottom segment is
      solid; otherwise every visible segment moves down one row, and a segment
      that reaches row 0 for the first time is written from the faller's contents. */
  function MoveFallerDown(g: GameState): (g': GameState)
    requires Valid(g) && g.faller.active
    ensures Valid(g') && g'.faller.active
    ensures Solid(g.board, g.faller.row + 1, g.faller.column) ==> g' == g
    ensures !Solid(g.board, g.faller.row + 1, g.faller.column) ==>
      g'.faller == g.faller.(row := g.faller.row + 1) &&
      g'.board == Descend(g.board, g.faller.row, g.faller.column, g.faller.contents)
    ensures AllConsistent(g.board) && (g.faller.active ==> NonBlank(g.faller.contents)) ==> AllConsistent(g'.board)
  {
    var f := g.faller;
    if Solid(g.board, f.row + 1, f.column) then g
    else
      DescendKeepsConsistent(g.board, f.row, f.column, f.contents);
      GameState(Descend(g.board, f.row, f.column, f.contents), f.(row := f.row + 1))
  }
}

=== FILE: gravity.dfy ===
/** `_gravity`: column-by-column compaction of occupied cells.  Each column
    is a `seq<Cell>` indexed by row, row 0 at the top.  Only occupied cells
    move, only downwards, and only while the cell below them is not solid
    (occupied or past the bottom). */
module Compaction {
  import opened Cells
  import opened Boards

  /** Column-local `_solid_faller`. */
  predicate SolidAt(col: seq<Cell>, r: nat) {
    r >= |col| || col[r].state == Occupied
  }

  /** Every cell of `col'` that is neither empty nor occupied stood at the same
      place in `col`: gravity creates nothing but empties and occupied cells. */
  predicate Retains(col: seq<Cell>, col': seq<Cell>) {
    |col'| == |col| &&
    forall j :: 0 <= j < |col'| ==> col'[j] == col[j] || col'[j] == EmptyCellValue || col'[j].state == Occupied
  }

  /** Every cell of `col'` is a cleared cell or one of the cells of `col`. */
  predicate FromCells(col: seq<Cell>, col': seq<Cell>) {
    forall j :: 0 <= j < |col'| ==> col'[j] == EmptyCellValue || col'[j] in col
  }

  /** `_move_cell(r, column, down)` within one column. */
  function MoveDown(col: seq<Cell>, r: nat): (col': seq<Cell>)
    requires r + 1 < |col|
    ensures |col'| == |col| && col'[r] == EmptyCellValue && col'[r + 1] == col[r]
    ensures forall j :: 0 <= j < |col| && j != r && j != r + 1 ==> col'[j] == col[j]
  {
    col[r := EmptyCellValue][r + 1 := col[r]]
  }

  /** The inner loop of `_gravity`: the occupied cell at `r` steps down one row at
      a time until the cell below it is solid.  Whatever it passes over is lost. */
  function Drop(col: seq<Cell>, r: nat): (col': seq<Cell>)
    requires r < |col| && col[r].state == Occupied
    ensures Retains(col, col') && FromCells(col, col')
    ensures forall j :: 0 <= j < r ==> col'[j] == col[j]
    decreases |col| - r
  {
    if SolidAt(col, r + 1) then col else Drop(MoveDown(col, r), r + 1)
  }

  /** One iteration of the row loop of `_gravity`: faller, empty and matching
      cells stay, an occupied cell drops. */
  function Settle(col: seq<Cell>, r: nat): (col': seq<Cell>)
    requires r < |col|
    ensures Retains(col, col') && FromCells(col, col')
    ensures forall j :: 0 <= j < r ==> col'[j] == col[j]
  {
    if col[r].state == Occupied then Drop(col, r) else col
  }

  /** The rows `k-1`, `k-2`, ..., `0` settled in that order (bottom-up). */
  function SettleFrom(col: seq<Cell>, k: nat): (col': seq<Cell>)
    requires k <= |col|
    ensures Retains(col, col') && FromCells(col, col')
    decreases k
  {
    if k == 0 then col else SettleFrom(Settle(col, k - 1), k - 1)
  }

  /** `_gravity` on one column. */
  function GravityColumn(col: seq<Cell>): (col': seq<Cell>)
    ensures Retains(col, col') && FromCells(col, col')
  {
    SettleFrom(col, |col|)
  }

  /** `_gravity`: every column compacted independently. */
  function Gravity(b: Board): (b': Board)
    requires b.Valid()
    ensures SameShape(b, b')
    ensures forall r, c :: InBounds(b, r, c) && IsFaller(Get(b', r, c).state) ==> Get(b', r, c) == Get(b, r, c)
    ensures forall r, c :: InBounds(b, r, c) && Get(b', r, c).state == Matching ==> Get(b', r, c) == Get(b, r, c)
    ensures AllConsistent(b) ==> AllConsistent(b')
  {
    ConsistentColumns(b);
    b.(cells := seq(b.columns, c requires 0 <= c < b.columns => GravityColumn(b.cells[c])))
  }

  lemma ConsistentColumns(b: Board)
    requires b.Valid()
    ensures AllConsistent(b) ==> forall c, x :: 0 <= c < b.columns && x in b.cells[c] ==> Consistent(x)
  {
    if AllConsistent(b) {
      forall c, x | 0 <= c < b.columns && x in b.cells[c]
        ensures Consistent(x)
      {
        var r :| 0 <= r < b.rows && b.cells[c][r] == x;
        assert Get(b, r, c) == x;
      }
    }
  }

  // ---------------------------------------------------------------------------
  // Reference definition on columns that hold only occupied and empty cells.

  /** A column of occupied cells and cleared cells only. */
  predicate Clean(col: seq<Cell>) {
    forall j :: 0 <= j < |col| ==> col[j].state == Occupied || col[j] == EmptyCellValue
  }

  function Blanks(m: nat): (s: seq<Cell>)
    ensures |s| == m && forall j :: 0 <= j < m ==> s[j] == EmptyCellValue
  {
    seq(m, _ => EmptyCellValue)
  }

  /** The occupied cells of a column, top to bottom. */
  function Occupants(col: seq<Cell>): (s: seq<Cell>)
    ensures |s| <= |col|
    ensures forall j :: 0 <= j < |s| ==> s[j].state == Occupied
  {
    if |col| == 0 then []
    else (if col[0].state == Occupied then [col[0]] else []) + Occupants(col[1..])
  }

  /** The compacted column: blanks on top, the occupied cells in their order below. */
  function Compact(col: seq<Cell>): (s: seq<Cell>)
    ensures |s| == |col|
  {
    Blanks(|col| - |Occupants(col)|) + Occupants(col)
  }

  /** Every occupied cell rests on an occupied cell or on the bottom edge. */
  predicate Settled(col: seq<Cell>) {
    forall j :: 0 <= j < |col| - 1 && col[j].state == Occupied ==> col[j + 1].state == Occupied
  }

  lemma {:induction false} OccupantsAppend(a: seq<Cell>, b: seq<Cell>)
    ensures Occupants(a + b) == Occupants(a) + Occupants(b)
    decreases |a|
  {
    if |a| == 0 {
      assert a + b == b;
    } else {
      assert (a + b)[1..] == a[1..] + b;
      OccupantsAppend(a[1..], b);
    }
  }

  lemma {:induction false} OccupantsBlanks(m: nat)
    ensures Occupants(Blanks(m)) == []
  {
    if m > 0 {
      assert Blanks(m)[1..] == Blanks(m - 1);
      OccupantsBlanks(m - 1);
    }
  }

  lemma {:induction false} OccupantsAllOccupied(q: seq<Cell>)
    requires forall j :: 0 <= j < |q| ==> q[j].state == Occupied
    ensures Occupants(q) == q
  {
    if |q| > 0 {
      OccupantsAllOccupied(q[1..]);
      assert q == [q[0]] + q[1..];
    }
  }

  /** The drop of one occupied cell over a gap of `m` blanks onto a stack. */
  lemma {:induction false} DropOverGap(p: seq<Cell>, x: Cell, m: nat, q: seq<Cell>)
    requires x.state == Occupied
    requires forall j :: 0 <= j < |q| ==> q[j].state == Occupied
    ensures Drop(p + [x] + Blanks(m) + q, |p|) == p + Blanks(m) + [x] + q
    decreases m
  {
    var col := p + [x] + Blanks(m) + q;
    if m == 0 {
      assert Blanks(0) == [];
      assert col == p + [x] + q;
      assert SolidAt(col, |p| + 1);
    } else {
      assert col[|p| + 1] == EmptyCellValue;
      var p' := p + [EmptyCellValue];
      assert MoveDown(col, |p|) == p' + [x] + Blanks(m - 1) + q;
      DropOverGap(p', x, m - 1, q);
      assert p' + Blanks(m - 1) == p + Blanks(m);
    }
  }

  /** The occupied cells of a compacted column `Blanks(m) + q`. */
  lemma OccupantsOfStack(m: nat, q: seq<Cell>)
    requires forall j :: 0 <= j < |q| ==> q[j].state == Occupied
    ensures Occupants(Blanks(m) + q) == q
  {
    OccupantsAppend(Blanks(m), q);
    OccupantsBlanks(m);
    OccupantsAllOccupied(q);
  }

  lemma DropOntoStack(col: seq<Cell>, p: seq<Cell>, x: Cell, m: nat, q: seq<Cell>)
    requires x.state == Occupied && col == p + [x] + (Blanks(m) + q)
    requires forall j :: 0 <= j < |q| ==> q[j].state == Occupied
    ensures Drop(col, |p|) == p + Blanks(m) + ([x] + q)
  {
    DropOverGap(p, x, m, q);
    assert col == p + [x] + Blanks(m) + q;
    assert p + Blanks(m) + [x] + q == p + Blanks(m) + ([x] + q);
  }

  /** Settling row `k-1` on top of an already compacted part `Blanks(m) + q`. */
  lemma SettleStep(col: seq<Cell>, k: nat, m: nat, q: seq<Cell>)
    requires 0 < k <= |col| && Clean(col)
    requires col[k..] == Blanks(m) + q
    requires forall j :: 0 <= j < |q| ==> q[j].state == Occupied
    ensures col[k - 1].state == Occupied ==> Settle(col, k - 1) == col[..k - 1] + Blanks(m) + ([col[k - 1]] + q)
    ensures col[k - 1].state != Occupied ==> Settle(col, k - 1) == col[..k - 1] + Blanks(m + 1) + q
  {
    var p, x := col[..k - 1], col[k - 1];
    assert col == p + [x] + (Blanks(m) + q);
    if x.state == Occupied {
      DropOntoStack(col, p, x, m, q);
    } else {
      assert x == EmptyCellValue;
      assert Blanks(m + 1) == [x] + Blanks(m);
    }
  }

  lemma {:induction false} CompactClean(col: seq<Cell>)
    ensures Clean(Compact(col))
    ensures Occupants(Compact(col)) == Occupants(col)
  {
    OccupantsOfStack(|col| - |Occupants(col)|, Occupants(col));
  }

  lemma StackClean(p: seq<Cell>, m: nat, q: seq<Cell>)
    requires Clean(p)
    requires forall j :: 0 <= j < |q| ==> q[j].state == Occupied
    ensures Clean(p + (Blanks(m) + q))
  {
    var c := p + (Blanks(m) + q);
    forall j | 0 <= j < |c|
      ensures c[j].state == Occupied || c[j] == EmptyCellValue
    {
      if j < |p| {
        assert c[j] == p[j];
      } else if j < |p| + m {
        assert c[j] == Blanks(m)[j - |p|];
      } else {
        assert c[j] == q[j - |p| - m];
      }
    }
  }

  /** Settling one row keeps the column's occupied cells and their order. */
  lemma SettleKeepsOccupants(p: seq<Cell>, x: Cell, m: nat, q: seq<Cell>)
    requires forall j :: 0 <= j < |q| ==> q[j].state == Occupied
    ensures x.state == Occupied ==>
      Occupants(p + ([x] + (Blanks(m) + q))) == Occupants(p + (Blanks(m) + ([x] + q)))
    ensures x.state != Occupied ==>
      Occupants(p + ([x] + (Blanks(m) + q))) == Occupants(p + (Blanks(m + 1) + q))
  {
    var rest := Blanks(m) + q;
    var before := Occupants([x]) + Occupants(rest);
    OccupantsAppend([x], rest);
    OccupantsOfStack(m, q);
    OccupantsAppend(p, [x] + rest);
    assert Occupants(p + ([x] + rest)) == Occupants(p) + before;
    if x.state == Occupied {
      assert Occupants([x]) == [x];
      OccupantsOfStack(m, [x] + q);
      OccupantsAppend(p, Blanks(m) + ([x] + q));
    } else {
      assert Occupants([x]) == [];
      OccupantsOfStack(m + 1, q);
      OccupantsAppend(p, Blanks(m + 1) + q);
    }
  }

  /** A column split around row `k-1`. */
  lemma SplitAt(col: seq<Cell>, k: nat)
    requires 0 < k <= |col|
    ensures col == col[..k - 1] + ([col[k - 1]] + col[k..])
  {
  }

  /** The suffix after a prefix of length `|p|`. */
  lemma SuffixOf(p: seq<Cell>, s: seq<Cell>)
    ensures (p + s)[|p|..] == s
  {
  }

  /** The settled column, in the shape `p + (Blanks(m') + q')`. */
  lemma SettleStepStack(col: seq<Cell>, k: nat, m: nat, q: seq<Cell>) returns (m': nat, q': seq<Cell>)
    requires 0 < k <= |col| && Clean(col)
    requires col[k..] == Blanks(m) + q
    requires forall j :: 0 <= j < |q| ==> q[j].state == Occupied
    ensures Settle(col, k - 1) == col[..k - 1] + (Blanks(m') + q')
    ensures forall j :: 0 <= j < |q'| ==> q'[j].state == Occupied
    ensures col[k - 1].state == Occupied ==> m' == m && q' == [col[k - 1]] + q
    ensures col[k - 1].state != Occupied ==> m' == m + 1 && q' == q
  {
    SettleStep(col, k, m, q);
    var p, x := col[..k - 1], col[k - 1];
    if x.state == Occupied {
      m', q' := m, [x] + q;
      assert p + Blanks(m) + ([x] + q) == p + (Blanks(m') + q');
    } else {
      m', q' := m + 1, q;
      assert p + Blanks(m + 1) + q == p + (Blanks(m') + q');
    }
  }

  /** After settling row `k-1`, the column again has the shape the induction needs. */
  lemma SettleStepShape(col: seq<Cell>, k: nat, m: nat, q: seq<Cell>) returns (m': nat, q': seq<Cell>)
    requires 0 < k <= |col| && Clean(col)
    requires col[k..] == Blanks(m) + q
    requires forall j :: 0 <= j < |q| ==> q[j].state == Occupied
    ensures Clean(Settle(col, k - 1))
    ensures Settle(col, k - 1)[k - 1..] == Blanks(m') + q'
    ensures forall j :: 0 <= j < |q'| ==> q'[j].state == Occupied
    ensures Occupants(Settle(col, k - 1)) == Occupants(col)
  {
    m', q' := SettleStepStack(col, k, m, q);
    var p, x := col[..k - 1], col[k - 1];
    var col' := Settle(col, k - 1);
    assert Clean(p);
    SplitAt(col, k);
    SettleKeepsOccupants(p, x, m, q);
    StackClean(p, m', q');
    assert |p| == k - 1;
    SuffixOf(p, Blanks(m') + q');
  }

  lemma {:induction false} SettleFromCompacts(col: seq<Cell>, k: nat, m: nat, q: seq<Cell>)
    requires k <= |col| && Clean(col)
    requires col[k..] == Blanks(m) + q
    requires forall j :: 0 <= j < |q| ==> q[j].state == Occupied
    ensures SettleFrom(col, k) == Compact(col)
    decreases k
  {
    if k == 0 {
      assert col == Blanks(m) + q;
      OccupantsOfStack(m, q);
    } else {
      var m', q' := SettleStepShape(col, k, m, q);
      var col' := Settle(col, k - 1);
      SettleFromCompacts(col', k - 1, m', q');
      assert Compact(col') == Compact(col);
    }
  }

  /** Gravity on a clean column is exactly the reference compaction. */
  lemma GravityIsCompact(col: seq<Cell>)
    requires Clean(col)
    ensures GravityColumn(col) == Compact(col)
  {
    assert col[|col|..] == Blanks(0) + [];
    SettleFromCompacts(col, |col|, 0, []);
  }

  /** On a clean column gravity keeps the top-to-bottom symbol sequence, leaves
      every occupied cell resting on an occupied cell or the bottom edge, and
      changes nothing when applied a second time. */
  lemma GravityColumnProperties(col: seq<Cell>)
    requires Clean(col)
    ensures Occupants(GravityColumn(col)) == Occupants(col)
    ensures Clean(GravityColumn(col))
    ensures Settled(GravityColumn(col))
    ensures GravityColumn(GravityColumn(col)) == GravityColumn(col)
  {
    GravityIsCompact(col);
    CompactClean(col);
    var g := Compact(col);
    var n := |col| - |Occupants(col)|;
    forall j | 0 <= j < |g| - 1 && g[j].state == Occupied
      ensures g[j + 1].state == Occupied
    {
      assert j >= n;
    }
    GravityIsCompact(g);
    assert Compact(g) == g;
  }
  // ---------------------------------------------------------------------------
  // Faller cells.

  lemma SettleKeepsClearSky(col: seq<Cell>, r: nat, f: nat)
    requires r < |col| && f < |col| && IsFaller(col[f].state)
    requires forall j :: 0 <= j < f ==> col[j].state != Occupied
    ensures forall j :: 0 <= j <= f ==> Settle(col, r)[j] == col[j]
  {
  }

  lemma {:induction false} SettleFromKeepsClearSky(col: seq<Cell>, k: nat, f: nat)
    requires k <= |col| && f < |col| && IsFaller(col[f].state)
    requires forall j :: 0 <= j < f ==> col[j].state != Occupied
    ensures SettleFrom(col, k)[f] == col[f]
    decreases k
  {
    if k > 0 {
      SettleKeepsClearSky(col, k - 1, f);
      SettleFromKeepsClearSky(Settle(col, k - 1), k - 1, f);
    }
  }

  /** Gravity never moves a faller cell, and one with no occupied cell above it
      in its column is left untouched. */
  lemma GravityKeepsFaller(col: seq<Cell>, f: nat)
    requires f < |col| && IsFaller(col[f].state)
    requires forall j :: 0 <= j < f ==> col[j].state != Occupied
    ensures GravityColumn(col)[f] == col[f]
  {
    SettleFromKeepsClearSky(col, |col|, f);
  }

  // ---------------------------------------------------------------------------
  // Whole boards.

  /** A board of occupied cells and cleared cells only. */
  ghost predicate CleanBoard(b: Board)
    requires b.Valid()
  {
    forall c :: 0 <= c < b.columns ==> Clean(b.cells[c])
  }

  /** On a board of occupied and empty cells, gravity keeps each column's symbol
      sequence, leaves every occupied cell resting on an occupied cell or the
      bottom edge, and is idempotent. */
  lemma GravityBoardProperties(b: Board)
    requires b.Valid() && CleanBoard(b)
    ensures CleanBoard(Gravity(b))
    ensures forall c :: 0 <= c < b.columns ==> Occupants(Gravity(b).cells[c]) == Occupants(b.cells[c])
    ensures forall c :: 0 <= c < b.columns ==> Settled(Gravity(b).cells[c])
    ensures Gravity(Gravity(b)) == Gravity(b)
  {
    var g := Gravity(b);
    forall c | 0 <= c < b.columns
      ensures Clean(g.cells[c]) && Occupants(g.cells[c]) == Occupants(b.cells[c])
      ensures Settled(g.cells[c]) && GravityColumn(g.cells[c]) == g.cells[c]
    {
      GravityColumnProperties(b.cells[c]);
    }
  }

  /** A faller cell with nothing occupied above it in its column survives gravity. */
  lemma GravityBoardKeepsFaller(b: Board, r: int, c: int)
    requires b.Valid() && InBounds(b, r, c) && IsFaller(Get(b, r, c).state)
    requires forall j :: 0 <= j < r ==> Get(b, j, c).state != Occupied
    ensures Get(Gravity(b), r, c) == Get(b, r, c)
  {
    forall j | 0 <= j < r
      ensures b.cells[c][j].state != Occupied
    {
      assert Get(b, j, c) == b.cells[c][j];
    }
    GravityKeepsFaller(b.cells[c], r);
  }

  /** `MoveDown` is `Boards.MoveCell(b, r, c, Down)` seen from column `c`. */
  lemma MoveDownIsMoveCell(b: Board, r: nat, c: int)
    requires b.Valid() && InBounds(b, r, c) && r + 1 < b.rows
    ensures MoveCell(b, r, c, Down) == b.(cells := b.cells[c := MoveDown(b.cells[c], r)])
  {
    var x, y := MoveCell(b, r, c, Down), b.(cells := b.cells[c := MoveDown(b.cells[c], r)]);
    assert y.Valid();
    forall r2, c2 | InBounds(b, r2, c2)
      ensures Get(x, r2, c2) == Get(y, r2, c2)
    {
      assert Get(b, r2, c2) == b.cells[c2][r2];
    }
    BoardsEqual(x, y);
  }

  /** The cell dropped from row `r` comes to rest at row `k`: it passed only
      unoccupied cells, the cell below `k` is solid, the rows it left are
      cleared, and nothing below it moved. */
  ghost predicate RestsAt(col: seq<Cell>, col': seq<Cell>, r: nat, k: nat) {
    && r <= k < |col| == |col'|
    && col'[k] == col[r]
    && SolidAt(col', k + 1)
    && (forall j :: r < j <= k ==> col[j].state != Occupied)
    && (forall j :: r <= j < k ==> col'[j] == EmptyCellValue)
    && (forall j :: k < j < |col| ==> col'[j] == col[j])
  }

  /** `Drop` moves the occupied cell down to the first solid cell below it, as
      the inner loop of `_gravity` does, and keeps it there. */
  lemma {:induction false} DropRests(col: seq<Cell>, r: nat)
    requires r < |col| && col[r].state == Occupied
    ensures exists k :: RestsAt(col, Drop(col, r), r, k)
    decreases |col| - r
  {
    if SolidAt(col, r + 1) {
      assert RestsAt(col, Drop(col, r), r, r);
    } else {
      var m := MoveDown(col, r);
      var d := Drop(m, r + 1);
      DropRests(m, r + 1);
      var k :| RestsAt(m, d, r + 1, k);
      assert d[r] == m[r] && Drop(col, r) == d;
      assert col[r + 1].state != Occupied;
      assert RestsAt(col, d, r, k);
    }
  }
}

=== FILE: lifecycle.dfy ===
/** `clock` and `board_contents`, and the properties that relate several
    faller operations. */
module Lifecycle {
  import opened Cells
  import opened Boards
  import opened Compaction
  import opened Lines
  import opened Matching
  import opened Game

  /** The board once a stopped faller is locked: its visible segments become occupied cells. */
  function LockFaller(b: Board, f: Faller): (b': Board)
    requires b.Valid() && f.row < b.rows && 0 <= f.column < b.columns && |f.contents| == 3
    ensures SameShape(b, b')
    ensures forall i :: 0 <= i < 3 && f.row - i >= 0 ==> Get(b', f.row - i, f.column) == Cell(f.contents[i], Occupied)
    ensures forall r, c :: InBounds(b, r, c) && !Segment(r, c, f.row, f.column) ==> Get(b', r, c) == Get(b, r, c)
    ensures AllConsistent(b) && NonBlank(f.contents) ==> AllConsistent(b')
  {
    WriteSegments(b, f.row, f.column, f.contents, Occupied)
  }

  /** This tick locks the faller: it is active, was stopped, and is still supported. */
  predicate Locks(g: GameState)
    requires Valid(g)
  {
    g.faller.active && g.faller.motion == Stopped && Solid(g.board, g.faller.row + 1, g.faller.column)
  }

  /** The faller part of a tick that does not lock: the motion is rechecked if the
      faller was stopped, it descends if it can, and its state is rechecked again. */
  function Fall(g: GameState): (g': GameState)
    requires Valid(g) && g.faller.active && !Locks(g)
    ensures Valid(g') && Drawn(g') && g'.faller.active
    ensures g'.faller.column == g.faller.column && g'.faller.contents == g.faller.contents
    ensures g'.faller.row == g.faller.row + (if Solid(g.board, g.faller.row + 1, g.faller.column) then 0 else 1)
    ensures g'.faller.motion == if Solid(g'.board, g'.faller.row + 1, g'.faller.column) then Stopped else Moving
    ensures Untouched(g.board, g'.board, g.faller.row, g.faller.column)
    ensures AllConsistent(g.board) && NonBlank(g.faller.contents) ==> AllConsistent(g'.board)
  {
    var u := if g.faller.motion == Stopped then UpdateFallerState(g) else g;
    FirstRecheck(g);
    FallFrom(g, u);
    UpdateFallerState(MoveFallerDown(u))
  }

  /** What `Fall` keeps from `g` in the state `u` it descends from: the faller
      up to its motion flag, the support below it, every cell out of its reach,
      and consistency. */
  ghost predicate Rechecked(g: GameState, u: GameState)
    requires Valid(g) && g.faller.active
  {
    var f := g.faller;
    && Valid(u) && u.faller == f.(motion := u.faller.motion)
    && Solid(u.board, f.row + 1, f.column) == Solid(g.board, f.row + 1, f.column)
    && Untouched(g.board, u.board, f.row, f.column)
    && (AllConsistent(g.board) && NonBlank(f.contents) ==> AllConsistent(u.board))
  }

  /** The recheck of a stopped faller at the start of `Fall` keeps what `Fall` needs. */
  lemma FirstRecheck(g: GameState)
    requires Valid(g) && g.faller.active
    ensures Rechecked(g, if g.faller.motion == Stopped then UpdateFallerState(g) else g)
  {
    RedrawKeepsSupport(g);
    RedrawUntouched(g, g.faller.row);
  }

  /** The descent and final recheck of `Fall`, from any state `u` that agrees
      with `g` as `Rechecked` says. */
  lemma FallFrom(g: GameState, u: GameState)
    requires Valid(g) && g.faller.active && Rechecked(g, u)
    ensures var w := UpdateFallerState(MoveFallerDown(u));
      && Valid(w) && Drawn(w) && w.faller.active
      && w.faller.column == g.faller.column && w.faller.contents == g.faller.contents
      && w.faller.row == g.faller.row + (if Solid(g.board, g.faller.row + 1, g.faller.column) then 0 else 1)
      && w.faller.motion == (if Solid(w.board, w.faller.row + 1, w.faller.column) then Stopped else Moving)
      && Untouched(g.board, w.board, g.faller.row, g.faller.column)
      && (AllConsistent(g.board) && NonBlank(g.faller.contents) ==> AllConsistent(w.board))
  {
    DescentFrom(g, u);
    RecheckAfterDescent(g, MoveFallerDown(u));
  }

  /** What `Fall` keeps from `g` in the state `m` after the descent: the faller's
      column and jewels, its row one lower exactly when it was unsupported, every
      cell out of its reach, and consistency. */
  ghost predicate Descended(g: GameState, m: GameState)
    requires Valid(g) && g.faller.active
  {
    var f := g.faller;
    && Valid(m) && m.faller.active && m.faller.column == f.column && m.faller.contents == f.contents
    && m.faller.row == f.row + (if Solid(g.board, f.row + 1, f.column) then 0 else 1)
    && Untouched(g.board, m.board, f.row, f.column)
    && (AllConsistent(g.board) && NonBlank(f.contents) ==> AllConsistent(m.board))
  }

  /** The descent step of `Fall`. */
  lemma DescentFrom(g: GameState, u: GameState)
    requires Valid(g) && g.faller.active && Rechecked(g, u)
    ensures Descended(g, MoveFallerDown(u))
  {
    var f := g.faller;
    var m := MoveFallerDown(u);
    assert m.faller == u.faller.(row := f.row + if Solid(u.board, f.row + 1, f.column) then 0 else 1);
    DescentUntouched(u);
    UntouchedTrans(g.board, u.board, m.board, f.row, f.column);
  }

  /** The final recheck of `Fall`. */
  lemma RecheckAfterDescent(g: GameState, m: GameState)
    requires Valid(g) && g.faller.active && Descended(g, m)
    ensures var w := UpdateFallerState(m);
      && Valid(w) && Drawn(w) && w.faller.active
      && w.faller.column == g.faller.column && w.faller.contents == g.faller.contents
      && w.faller.row == g.faller.row + (if Solid(g.board, g.faller.row + 1, g.faller.column) then 0 else 1)
      && w.faller.motion == (if Solid(w.board, w.faller.row + 1, w.faller.column) then Stopped else Moving)
      && Untouched(g.board, w.board, g.faller.row, g.faller.column)
      && (AllConsistent(g.board) && NonBlank(g.faller.contents) ==> AllConsistent(w.board))
  {
    var f := g.faller;
    var w := UpdateFallerState(m);
    RedrawKeepsSupport(m);
    RedrawUntouched(m, f.row);
    UntouchedTrans(g.board, m.board, w.board, f.row, f.column);
  }

  /** Board `b'` has the shape of `b` and agrees with it everywhere except in
      column `col`, rows `row - 2` to `row + 1`: the cells a faller at (`row`,
      `col`) can reach in one tick. */
  ghost predicate Untouched(b: Board, b': Board, row: int, col: int) {
    b.Valid() && SameShape(b, b') &&
    forall r, c :: InBounds(b, r, c) && !(c == col && row - 2 <= r <= row + 1) ==> Get(b', r, c) == Get(b, r, c)
  }

  lemma UntouchedTrans(a: Board, b: Board, c: Board, row: int, col: int)
    requires Untouched(a, b, row, col) && Untouched(b, c, row, col)
    ensures Untouched(a, c, row, col)
  {
  }

  /** Redrawing a faller at row `row` or `row + 1` stays within the reach of a
      faller at `row`. */
  lemma RedrawUntouched(g: GameState, row: int)
    requires Valid(g) && g.faller.active && row <= g.faller.row <= row + 1
    ensures Untouched(g.board, UpdateFallerState(g).board, row, g.faller.column)
  {
  }

  /** A descent stays within the reach of the faller before it. */
  lemma DescentUntouched(g: GameState)
    requires Valid(g) && g.faller.active
    ensures Untouched(g.board, MoveFallerDown(g).board, g.faller.row, g.faller.column)
  {
  }

  /** Redrawing a faller does not touch the cell below it, so its support is unchanged. */
  lemma RedrawKeepsSupport(g: GameState)
    requires Valid(g) && g.faller.active
    ensures Solid(UpdateFallerState(g).board, g.faller.row + 1, g.faller.column) == Solid(g.board, g.faller.row + 1, g.faller.column)
  {
    var f := g.faller;
    if f.row + 1 < g.board.rows {
      assert !Segment(f.row + 1, f.column, f.row, f.column);
    }
  }

  lemma LockAfterUpdate(g: GameState)
    requires Valid(g) && Locks(g)
    ensures UpdateFallerState(g).faller == g.faller
    ensures LockFaller(UpdateFallerState(g).board, g.faller) == LockFaller(g.board, g.faller)
  {
    var u := UpdateFallerState(g);
    var a, b := LockFaller(u.board, g.faller), LockFaller(g.board, g.faller);
    forall r, c | InBounds(a, r, c)
      ensures Get(a, r, c) == Get(b, r, c)
    {
      if Segment(r, c, g.faller.row, g.faller.column) {
        var i := g.faller.row - r;
        assert Get(a, g.faller.row - i, g.faller.column) == Get(b, g.faller.row - i, g.faller.column);
      }
    }
    BoardsEqual(a, b);
  }

  /** `clock`: one game tick.  It reports a top-out exactly when it locks a
      faller whose bottom segment is above row 2, that is, whose top segment never
      came onto the board. */
  method Clock(g: GameState) returns (g': GameState, toppedOut: bool)
    requires Valid(g)
    ensures Valid(g')
    ensures toppedOut <==> Locks(g) && g.faller.row < 2
    ensures !g.faller.active ==> g'.faller == g.faller && g'.board == Resolve(g.board)
    ensures Locks(g) ==>
      g'.faller == g.faller.(active := false) && g'.board == Resolve(LockFaller(g.board, g.faller))
    ensures g.faller.active && !Locks(g) ==> g'.faller == Fall(g).faller && g'.board == Resolve(Fall(g).board)
    ensures (g.faller.active && !Locks(g) &&
             forall j :: 0 <= j < Fall(g).faller.row - 2 ==> Get(Fall(g).board, j, g.faller.column).state != Occupied) ==>
      Drawn(g')
    ensures AllConsistent(g.board) && (g.faller.active ==> NonBlank(g.faller.contents)) ==> AllConsistent(g'.board)
  {
    var cur := g;
    if cur.faller.active {
      if cur.faller.motion == Stopped {
        cur := UpdateFallerState(cur);
        if cur.faller.motion == Stopped {
          LockAfterUpdate(g);
          toppedOut := cur.faller.row - 2 < 0;
          var locked := LockFaller(cur.board, cur.faller);
          var f := cur.faller.(active := false);
          var b := MatchingPass(locked);
          if AllConsistent(g.board) && NonBlank(g.faller.contents) {
            ResolveConsistent(locked);
          }
          g' := GameState(b, f);
          return;
        }
      }
      cur := MoveFallerDown(cur);
      cur := UpdateFallerState(cur);
      assert cur == Fall(g);
    }
    var b := MatchingPass(cur.board);
    if AllConsistent(cur.board) {
      ResolveConsistent(cur.board);
    }
    if cur.faller.active && forall j :: 0 <= j < cur.faller.row - 2 ==> Get(cur.board, j, cur.faller.column).state != Occupied {
      ResolveKeepsDrawn(cur);
    }
    g' := GameState(b, cur.faller);
    toppedOut := false;
  }

  /** A faller cell with nothing occupied above it in its column: no jewel can
      fall onto it. */
  ghost predicate UnburiedFaller(b: Board, r: int, c: int)
    requires b.Valid() && InBounds(b, r, c)
  {
    IsFaller(Get(b, r, c).state) && forall j :: 0 <= j < r ==> Get(b, j, c).state != Occupied
  }

  /** An unburied faller cell comes through a matching pass unchanged: clearing
      leaves it, gravity does not move it, and no run contains it since a faller
      cell is never matchable. */
  lemma ResolveKeepsFallerCell(b: Board, r: int, c: int)
    requires b.Valid() && InBounds(b, r, c) && UnburiedFaller(b, r, c)
    ensures Get(Resolve(b), r, c) == Get(b, r, c)
  {
    var cl := ClearMatching(b);
    forall j | 0 <= j < r
      ensures Get(cl, j, c).state != Occupied
    {
      assert Get(b, j, c).state != Occupied;
    }
    assert Get(cl, r, c) == Get(b, r, c);
    GravityBoardKeepsFaller(cl, r, c);
    var g := Collapsed(b);
    assert Get(g, r, c) == Get(b, r, c);
    assert !AnyRun(g, r, c) by {
      if HorizontalRun(g, r, c) {
        HorizontalRunMatchable(g, r, c);
      } else if VerticalRun(g, r, c) {
        VerticalRunMatchable(g, r, c);
      } else if DiagonalRun(g, r, c) {
        DiagonalRunMatchable(g, r, c);
      }
    }
    ResolveMarksRuns(b);
  }

  /** A faller drawn on `g.board` with nothing occupied above its top segment is
      still drawn on any board of the same shape that keeps every unburied faller cell. */
  lemma UnburiedStaysDrawn(g: GameState, b': Board)
    requires Valid(g) && Drawn(g) && SameShape(g.board, b')
    requires g.faller.active ==>
      forall j :: 0 <= j < g.faller.row - 2 ==> Get(g.board, j, g.faller.column).state != Occupied
    requires forall r, c :: InBounds(g.board, r, c) && UnburiedFaller(g.board, r, c) ==> Get(b', r, c) == Get(g.board, r, c)
    ensures Valid(GameState(b', g.faller)) && Drawn(GameState(b', g.faller))
  {
    var f := g.faller;
    if f.active {
      forall i | 0 <= i < 3 && f.row - i >= 0
        ensures Get(b', f.row - i, f.column) == Cell(f.contents[i], Tag(f.motion))
      {
        assert Get(g.board, f.row - i, f.column) == Cell(f.contents[i], Tag(f.motion));
        forall j | 0 <= j < f.row - i
          ensures Get(g.board, j, f.column).state != Occupied
        {
          if j >= f.row - 2 {
            assert Get(g.board, f.row - (f.row - j), f.column) == Cell(f.contents[f.row - j], Tag(f.motion));
          }
        }
        assert UnburiedFaller(g.board, f.row - i, f.column);
      }
    }
  }

  /** A drawn faller with nothing occupied above its top segment is still drawn
      after a matching pass. */
  lemma ResolveKeepsDrawn(g: GameState)
    requires Valid(g) && Drawn(g)
    requires g.faller.active ==>
      forall j :: 0 <= j < g.faller.row - 2 ==> Get(g.board, j, g.faller.column).state != Occupied
    ensures Valid(GameState(Resolve(g.board), g.faller))
    ensures Drawn(GameState(Resolve(g.board), g.faller))
  {
    var b' := Resolve(g.board);
    forall r, c | InBounds(g.board, r, c) && UnburiedFaller(g.board, r, c)
      ensures Get(b', r, c) == Get(g.board, r, c)
    {
      ResolveKeepsFallerCell(g.board, r, c);
    }
    UnburiedStaysDrawn(g, b');
  }

  /** The cell `board_contents` stores for one supplied value. */
  function LoadCell(ch: char): (x: Cell)
    ensures x.contents == ch
    ensures x.state == (if ch == Blank then EmptyCell else Occupied)
    ensures Consistent(x)
  {
    if ch == Blank then EmptyCellValue else Cell(ch, Occupied)
  }

  /** The first loop of `board_contents`: every cell loaded from the grid `contents[row][column]`. */
  function Load(b: Board, contents: seq<seq<char>>): (b': Board)
    requires b.Valid() && |contents| >= b.rows && forall r :: 0 <= r < b.rows ==> |contents[r]| >= b.columns
    ensures SameShape(b, b') && CleanBoard(b') && AllConsistent(b')
    ensures forall r, c :: InBounds(b, r, c) ==> Get(b', r, c) == LoadCell(contents[r][c])
  {
    b.(cells := seq(b.columns, c requires 0 <= c < b.columns =>
      seq(b.rows, r requires 0 <= r < b.rows => LoadCell(contents[r][c]))))
  }

  /** A board without matching cells is left alone by the clearing loop. */
  lemma ClearMatchingNoOp(b: Board)
    requires b.Valid() && CleanBoard(b)
    ensures ClearMatching(b) == b
  {
    var b' := ClearMatching(b);
    forall r, c | InBounds(b, r, c)
      ensures Get(b', r, c) == Get(b, r, c)
    {
      assert Clean(b.cells[c]);
      assert b.cells[c][r].state == Occupied || b.cells[c][r] == EmptyCellValue;
    }
    BoardsEqual(b', b);
  }

  /** `board_contents`: load, apply gravity, and run one matching pass.  The
      loaded symbols keep their top-to-bottom order in every column and come to
      rest on the floor; the matching pass then finds that board already settled
      and only marks runs. */
  method LoadContents(g: GameState, contents: seq<seq<char>>) returns (g': GameState)
    requires Valid(g)
    requires |contents| >= g.board.rows && forall r :: 0 <= r < g.board.rows ==> |contents[r]| >= g.board.columns
    ensures Valid(g') && g'.faller == g.faller && AllConsistent(g'.board)
    ensures var loaded := Load(g.board, contents);
      && (forall c :: 0 <= c < g.board.columns ==> Gravity(loaded).cells[c] == Compact(loaded.cells[c]))
      && Collapsed(Gravity(loaded)) == Gravity(loaded)
      && g'.board == Resolve(Gravity(loaded))
  {
    var loaded := Load(g.board, contents);
    var settled := Gravity(loaded);
    forall c | 0 <= c < g.board.columns
      ensures settled.cells[c] == Compact(loaded.cells[c])
    {
      GravityIsCompact(loaded.cells[c]);
    }
    GravityBoardProperties(loaded);
    ClearMatchingNoOp(settled);
    var b := MatchingPass(settled);
    ResolveConsistent(settled);
    g' := GameState(b, g.faller);
  }

  /** The faller's motion flag agrees with what is below it, as every faller
      operation leaves it. */
  predicate MotionCurrent(g: GameState)
    requires Valid(g)
  {
    g.faller.active ==>
      g.faller.motion == if Solid(g.board, g.faller.row + 1, g.faller.column) then Stopped else Moving
  }

  function Opposite(d: Direction): (d': Direction)
    ensures Delta(d') == -Delta(d)
  {
    if d == Left then Right else Left
  }

  /** No visible segment row of column `col` holds anything. */
  ghost predicate Vacant(b: Board, row: int, col: int)
    requires b.Valid() && row < b.rows && 0 <= col < b.columns
  {
    forall r :: 0 <= r && row - 2 <= r <= row ==> Get(b, r, col) == EmptyCellValue
  }

  /** Two states with the same faller, both drawn, that agree off the faller's
      segments are equal. */
  lemma SameDrawing(g: GameState, h: GameState)
    requires Valid(g) && Valid(h) && g.faller == h.faller && g.faller.active
    requires Drawn(g) && Drawn(h) && SameShape(g.board, h.board)
    requires forall r, c :: InBounds(g.board, r, c) && !Segment(r, c, g.faller.row, g.faller.column) ==>
      Get(g.board, r, c) == Get(h.board, r, c)
    ensures g == h
  {
    var f := g.faller;
    forall r, c | InBounds(g.board, r, c)
      ensures Get(g.board, r, c) == Get(h.board, r, c)
    {
      if Segment(r, c, f.row, f.column) {
        var i := f.row - r;
        assert Get(g.board, f.row - i, f.column) == Cell(f.contents[i], Tag(f.motion));
        assert Get(h.board, f.row - i, f.column) == Cell(f.contents[i], Tag(f.motion));
      }
    }
    BoardsEqual(g.board, h.board);
  }

  /** What a rotation of an active faller promises: contents cycled, motion
      rechecked, the faller drawn, and every other cell kept. */
  ghost predicate RotatedTo(g: GameState, g': GameState)
    requires Valid(g) && g.faller.active
  {
    var f := g.faller;
    && Valid(g') && SameShape(g.board, g'.board)
    && g'.faller == f.(contents := Rotated(f.contents),
                       motion := if Solid(g.board, f.row + 1, f.column) then Stopped else Moving)
    && Drawn(g')
    && (forall r, c :: InBounds(g.board, r, c) && !Segment(r, c, f.row, f.column) ==>
          Get(g'.board, r, c) == Get(g.board, r, c))
  }

  lemma RotateRotates(g: GameState)
    requires Valid(g) && g.faller.active
    ensures RotatedTo(g, Rotate(g))
  {
  }

  /** A rotation leaves the cell below the faller, and so its support, alone. */
  lemma RotationKeepsSupport(g: GameState, g': GameState)
    requires Valid(g) && g.faller.active && RotatedTo(g, g')
    ensures g'.faller.active && g'.faller.row == g.faller.row && g'.faller.column == g.faller.column
    ensures Solid(g'.board, g.faller.row + 1, g.faller.column) == Solid(g.board, g.faller.row + 1, g.faller.column)
  {
    assert !Segment(g.faller.row + 1, g.faller.column, g.faller.row, g.faller.column);
  }

  /** Three successive rotations of a drawn faller give back the same state. */
  lemma ThreeRotations(g: GameState, g1: GameState, g2: GameState, g3: GameState)
    requires Valid(g) && g.faller.active && Drawn(g) && MotionCurrent(g)
    requires RotatedTo(g, g1)
    requires Valid(g1) && g1.faller.active && RotatedTo(g1, g2)
    requires Valid(g2) && g2.faller.active && RotatedTo(g2, g3)
    ensures g3 == g
  {
    var f := g.faller;
    RotationKeepsSupport(g, g1);
    RotationKeepsSupport(g1, g2);
    assert g3.faller.contents == f.contents;
    assert g3.faller == f;
    assert forall r, c :: InBounds(g.board, r, c) && !Segment(r, c, f.row, f.column) ==>
      Get(g3.board, r, c) == Get(g.board, r, c);
    SameDrawing(g3, g);
  }

  /** Three rotations give back the very same game state. */
  lemma RotateThrice(g: GameState)
    requires Valid(g) && Drawn(g) && MotionCurrent(g)
    ensures Rotate(Rotate(Rotate(g))) == g
  {
    if g.faller.active {
      var g1 := Rotate(g);
      RotateRotates(g);
      var g2 := Rotate(g1);
      RotateRotates(g1);
      RotateRotates(g2);
      ThreeRotations(g, g1, g2, Rotate(g2));
    }
  }

  /** What a successful sideways move promises: the faller one column over
      with its motion rechecked, drawn there, the old segment cells emptied and
      every other cell kept. */
  ghost predicate SideMoved(g: GameState, d: Direction, g': GameState)
    requires Valid(g) && g.faller.active && 0 <= g.faller.column + Delta(d) < g.board.columns
  {
    var f, t := g.faller, g.faller.column + Delta(d);
    && Valid(g') && SameShape(g.board, g'.board)
    && g'.faller == f.(column := t, motion := if Solid(g.board, f.row + 1, t) then Stopped else Moving)
    && Drawn(g')
    && (forall r :: 0 <= r && f.row - 2 <= r <= f.row ==> Get(g'.board, r, f.column) == EmptyCellValue)
    && (forall r, c :: (InBounds(g.board, r, c) && !Segment(r, c, f.row, f.column) && !Segment(r, c, f.row, t)) ==>
          Get(g'.board, r, c) == Get(g.board, r, c))
  }

  lemma MoveSideMoves(g: GameState, d: Direction)
    requires Valid(g) && g.faller.active && !AtEdge(g, d)
    requires !Blocked(g.board, g.faller.row, g.faller.column + Delta(d))
    ensures SideMoved(g, d, MoveSide(g, d))
  {
  }

  /** After a sideways move the column left behind is vacant, so the move back
      is allowed, and the cell below the faller's old place is untouched. */
  lemma MovedBackAllowed(g: GameState, d: Direction, g1: GameState)
    requires Valid(g) && g.faller.active && 0 <= g.faller.column + Delta(d) < g.board.columns
    requires SideMoved(g, d, g1)
    ensures !AtEdge(g1, Opposite(d))
    ensures !Blocked(g1.board, g1.faller.row, g1.faller.column + Delta(Opposite(d)))
    ensures Solid(g1.board, g.faller.row + 1, g.faller.column) == Solid(g.board, g.faller.row + 1, g.faller.column)
  {
    var f := g.faller;
    assert g1.faller.column + Delta(Opposite(d)) == f.column;
    assert !Blocked(g1.board, f.row, f.column) by {
      forall r | 0 <= r && f.row - 2 <= r <= f.row
        ensures Get(g1.board, r, f.column).state != Occupied
      {
        assert Get(g1.board, r, f.column) == EmptyCellValue;
      }
    }
    assert !Segment(f.row + 1, f.column, f.row, f.column) && !Segment(f.row + 1, f.column, f.row, f.column + Delta(d));
  }

  /** Two successive moves, there and back: the faller is where it was, and
      when it was drawn and the cells it passed through were empty, the game
      state is as it was. */
  lemma MovedThereAndBack(g: GameState, d: Direction, g1: GameState, back: GameState)
    requires Valid(g) && g.faller.active && 0 <= g.faller.column + Delta(d) < g.board.columns
    requires SideMoved(g, d, g1)
    requires Valid(g1) && g1.faller.active && 0 <= g1.faller.column + Delta(Opposite(d)) < g1.board.columns
    requires SideMoved(g1, Opposite(d), back)
    ensures back.faller == g.faller.(motion := if Solid(g.board, g.faller.row + 1, g.faller.column) then Stopped else Moving)
    ensures Drawn(back) && SameShape(g.board, back.board)
    ensures Drawn(g) && MotionCurrent(g) && Vacant(g.board, g.faller.row, g.faller.column + Delta(d)) ==> back == g
  {
    var f := g.faller;
    var t := f.column + Delta(d);
    MovedBackAllowed(g, d, g1);
    if Drawn(g) && MotionCurrent(g) && Vacant(g.board, f.row, t) {
      forall r, c | InBounds(g.board, r, c) && !Segment(r, c, f.row, f.column)
        ensures Get(back.board, r, c) == Get(g.board, r, c)
      {
        if Segment(r, c, f.row, t) {
          assert Get(back.board, r, t) == EmptyCellValue;
        } else {
          assert Get(g1.board, r, c) == Get(g.board, r, c);
        }
      }
      SameDrawing(back, g);
    }
  }

  /** The move back from any state `g1` that a sideways move of `g` produced. */
  lemma MoveSideBack(g: GameState, d: Direction, g1: GameState)
    requires Valid(g) && g.faller.active && 0 <= g.faller.column + Delta(d) < g.board.columns
    requires SideMoved(g, d, g1)
    ensures Valid(g1) && g1.faller.active && !AtEdge(g1, Opposite(d))
    ensures var back := MoveSide(g1, Opposite(d));
      && back.faller == g.faller.(motion := if Solid(g.board, g.faller.row + 1, g.faller.column) then Stopped else Moving)
      && (Drawn(g) && MotionCurrent(g) && Vacant(g.board, g.faller.row, g.faller.column + Delta(d)) ==> back == g)
  {
    MovedBackAllowed(g, d, g1);
    MoveSideMoves(g1, Opposite(d));
    MovedThereAndBack(g, d, g1, MoveSide(g1, Opposite(d)));
  }

  /** A move sideways followed by a move back returns the faller to where it
      was; when the cells it passed through were empty, the whole game state
      is restored. */
  lemma MoveSideAndBack(g: GameState, d: Direction)
    requires Valid(g) && g.faller.active && !AtEdge(g, d)
    requires !Blocked(g.board, g.faller.row, g.faller.column + Delta(d))
    ensures var back := MoveSide(MoveSide(g, d), Opposite(d));
      back.faller == g.faller.(motion := back.faller.motion)
    ensures Drawn(g) && MotionCurrent(g) && Vacant(g.board, g.faller.row, g.faller.column + Delta(d)) ==>
      MoveSide(MoveSide(g, d), Opposite(d)) == g
  {
    MoveSideMoves(g, d);
    MoveSideBack(g, d, MoveSide(g, d));
  }

  /** A moving faller that descends is still drawn at its new position. */
  lemma DescentKeepsDrawn(g: GameState)
    requires Valid(g) && g.faller.active && Drawn(g) && g.faller.motion == Moving
    ensures Drawn(MoveFallerDown(g))
  {
    var f := g.faller;
    if !Solid(g.board, f.row + 1, f.column) {
      var g' := MoveFallerDown(g);
      var d := Descend(g.board, f.row, f.column, f.contents);
      assert g'.board == d && g'.faller == f.(row := f.row + 1);
      forall i | 0 <= i < 3 && f.row + 1 - i >= 0
        ensures Get(d, f.row + 1 - i, f.column) == Cell(f.contents[i], FallerMoving)
      {
        if f.row - i >= 0 {
          assert Get(g.board, f.row - i, f.column) == Cell(f.contents[i], FallerMoving);
        }
      }
    }
  }
}

=== FILE: lines.dfy ===
/** The scan lines of a board and the writers that mark positions of a line
    as matching. */
module Lines {
  import opened Cells
  import opened Boards
  import opened Runs

  /** Row `r`, left to right. */
  function RowLine(b: Board, r: int): (line: seq<Cell>)
    requires b.Valid() && 0 <= r < b.rows
    ensures |line| == b.columns && forall c :: 0 <= c < b.columns ==> line[c] == Get(b, r, c)
  {
    seq(b.columns, c requires 0 <= c < b.columns => Get(b, r, c))
  }

  /** Column `c`, bottom to top. */
  function ColumnLine(b: Board, c: int): (line: seq<Cell>)
    requires b.Valid() && 0 <= c < b.columns
    ensures |line| == b.rows && forall k :: 0 <= k < b.rows ==> line[k] == Get(b, b.rows - 1 - k, c)
  {
    seq(b.rows, k requires 0 <= k < b.rows => Get(b, b.rows - 1 - k, c))
  }

  /** How far the "/" walk from `(r, c)` goes: up and to the right until an edge. */
  function WalkLength(b: Board, r: int, c: int): (n: nat)
    requires InBounds(b, r, c)
    ensures 1 <= n && n <= r + 1 && c + n <= b.columns
  {
    if r + 1 < b.columns - c then r + 1 else b.columns - c
  }

  /** The cells `(r - k, c + k)` visited by the diagonal scan anchored at `(r, c)`. */
  function DiagonalWalk(b: Board, r: int, c: int): (line: seq<Cell>)
    requires b.Valid() && InBounds(b, r, c)
    ensures |line| == WalkLength(b, r, c)
  {
    seq(WalkLength(b, r, c), k requires 0 <= k < WalkLength(b, r, c) => Get(b, r - k, c + k))
  }

  /** How many steps `(r, c)` lies from the lower-left end of its "/" diagonal. */
  function Offset(b: Board, r: int, c: int): (d: nat)
    requires InBounds(b, r, c)
    ensures d <= c && r + d < b.rows
  {
    if b.rows - 1 - r < c then b.rows - 1 - r else c
  }

  /** The cell is in a horizontal run of at least three. */
  predicate HorizontalRun(b: Board, r: int, c: int)
    requires b.Valid() && InBounds(b, r, c)
  {
    InRun(RowLine(b, r), c)
  }

  /** The cell is in a vertical run of at least three. */
  predicate VerticalRun(b: Board, r: int, c: int)
    requires b.Valid() && InBounds(b, r, c)
  {
    InRun(ColumnLine(b, c), b.rows - 1 - r)
  }

  /** The cell is in a "/" diagonal run of at least three. */
  predicate DiagonalRun(b: Board, r: int, c: int)
    requires b.Valid() && InBounds(b, r, c)
  {
    var d := Offset(b, r, c);
    InRun(DiagonalWalk(b, r + d, c - d), d)
  }

  /** The cell is in a run in one of the three scanned orientations. */
  predicate AnyRun(b: Board, r: int, c: int)
    requires b.Valid() && InBounds(b, r, c)
  {
    HorizontalRun(b, r, c) || VerticalRun(b, r, c) || DiagonalRun(b, r, c)
  }

  /** A cell after `_cell_state(..., matching_cell)`. */
  function Marked(x: Cell): (y: Cell) {
    x.(state := Matching)
  }

  /** Marks the positions of row `r` selected by `marks`. */
  function MarkRow(b: Board, r: int, marks: seq<bool>): (b': Board)
    requires b.Valid() && 0 <= r < b.rows && |marks| == b.columns
    ensures SameShape(b, b')
    ensures forall r2, c :: InBounds(b, r2, c) ==>
      Get(b', r2, c) == if r2 == r && marks[c] then Marked(Get(b, r2, c)) else Get(b, r2, c)
  {
    b.(cells := seq(b.columns, c requires 0 <= c < b.columns =>
      if marks[c] then b.cells[c][r := Marked(b.cells[c][r])] else b.cells[c]))
  }

  /** Marks the positions of column `c` (counted from the bottom) selected by `marks`. */
  function MarkColumn(b: Board, c: int, marks: seq<bool>): (b': Board)
    requires b.Valid() && 0 <= c < b.columns && |marks| == b.rows
    ensures SameShape(b, b')
    ensures forall r, c2 :: InBounds(b, r, c2) ==>
      Get(b', r, c2) == if c2 == c && marks[b.rows - 1 - r] then Marked(Get(b, r, c2)) else Get(b, r, c2)
  {
    b.(cells := b.cells[c := seq(b.rows, r requires 0 <= r < b.rows =>
      if marks[b.rows - 1 - r] then Marked(b.cells[c][r]) else b.cells[c][r])])
  }

  /** Marks the positions of the diagonal walk from `(r, c)` selected by `marks`. */
  function MarkWalk(b: Board, r: int, c: int, marks: seq<bool>): (b': Board)
    requires b.Valid() && InBounds(b, r, c) && |marks| == WalkLength(b, r, c)
    ensures SameShape(b, b')
    ensures forall r2, c2 :: InBounds(b, r2, c2) ==>
      Get(b', r2, c2) ==
        if c <= c2 < c + |marks| && r2 == r - (c2 - c) && marks[c2 - c] then Marked(Get(b, r2, c2)) else Get(b, r2, c2)
  {
    b.(cells := seq(b.columns, c2 requires 0 <= c2 < b.columns =>
      if c <= c2 < c + |marks| && marks[c2 - c]
      then b.cells[c2][r - (c2 - c) := Marked(b.cells[c2][r - (c2 - c)])]
      else b.cells[c2]))
  }

  /** Two boards that agree on contents and matchability everywhere. */
  ghost predicate BoardTwins(a: Board, b: Board)
    requires a.Valid()
  {
    SameShape(a, b) &&
    forall r, c :: InBounds(a, r, c) ==>
      Get(a, r, c).contents == Get(b, r, c).contents && Matchable(Get(a, r, c).state) == Matchable(Get(b, r, c).state)
  }

  /** The walk anchored `d` steps further down-left contains this walk as its tail. */
  lemma WalkTail(b: Board, r: int, c: int, d: nat)
    requires b.Valid() && InBounds(b, r, c) && r + d < b.rows && d <= c
    ensures DiagonalWalk(b, r + d, c - d)[d..] == DiagonalWalk(b, r, c)
  {
    var full, w := DiagonalWalk(b, r + d, c - d), DiagonalWalk(b, r, c);
    assert |full[d..]| == |w|;
    forall k | 0 <= k < |w|
      ensures full[d..][k] == w[k]
    {
      assert full[d..][k] == full[d + k];
    }
  }

  /** Every position a walk from any anchor finds in a run is a diagonal-run cell. */
  lemma WalkRunIsDiagonalRun(b: Board, r: int, c: int, k: nat)
    requires b.Valid() && InBounds(b, r, c) && k < WalkLength(b, r, c)
    requires InRun(DiagonalWalk(b, r, c), k)
    ensures DiagonalRun(b, r - k, c + k)
  {
    var d := Offset(b, r, c);
    assert Offset(b, r - k, c + k) == d + k;
    WalkTail(b, r, c, d);
    SuffixInRun(DiagonalWalk(b, r + d, c - d), d, k);
  }

  /** The walk from the lower-left end of a diagonal finds exactly its runs. */
  lemma EndWalkFindsDiagonalRuns(b: Board, r: int, c: int, k: nat)
    requires b.Valid() && InBounds(b, r, c) && (r == b.rows - 1 || c == 0) && k < WalkLength(b, r, c)
    ensures DiagonalRun(b, r - k, c + k) == InRun(DiagonalWalk(b, r, c), k)
  {
    assert Offset(b, r - k, c + k) == k;
  }

  /** A cell of a diagonal run is matchable. */
  lemma DiagonalRunMatchable(b: Board, r: int, c: int)
    requires b.Valid() && InBounds(b, r, c) && DiagonalRun(b, r, c)
    ensures Matchable(Get(b, r, c).state)
  {
    var d := Offset(b, r, c);
    assert DiagonalWalk(b, r + d, c - d)[d] == Get(b, r, c);
  }

  lemma TwinWalks(a: Board, b: Board, r: int, c: int)
    requires a.Valid() && BoardTwins(a, b) && InBounds(a, r, c)
    ensures Twins(DiagonalWalk(a, r, c), DiagonalWalk(b, r, c))
  {
  }

  lemma TwinColumns(a: Board, b: Board, c: int)
    requires a.Valid() && BoardTwins(a, b) && 0 <= c < a.columns
    ensures Twins(ColumnLine(a, c), ColumnLine(b, c))
  {
  }

  lemma TwinRows(a: Board, b: Board, r: int)
    requires a.Valid() && BoardTwins(a, b) && 0 <= r < a.rows
    ensures Twins(RowLine(a, r), RowLine(b, r))
  {
  }

  lemma TwinHorizontal(a: Board, b: Board, r: int, c: int)
    requires a.Valid() && BoardTwins(a, b) && InBounds(a, r, c)
    ensures HorizontalRun(a, r, c) == HorizontalRun(b, r, c)
  {
    TwinRows(a, b, r);
    TwinsInRun(RowLine(a, r), RowLine(b, r));
  }

  lemma TwinVertical(a: Board, b: Board, r: int, c: int)
    requires a.Valid() && BoardTwins(a, b) && InBounds(a, r, c)
    ensures VerticalRun(a, r, c) == VerticalRun(b, r, c)
  {
    TwinColumns(a, b, c);
    TwinsInRun(ColumnLine(a, c), ColumnLine(b, c));
  }

  lemma DiagonalRunAt(b: Board, r: int, c: int, d: nat)
    requires b.Valid() && InBounds(b, r, c) && d == Offset(b, r, c)
    ensures DiagonalRun(b, r, c) == InRun(DiagonalWalk(b, r + d, c - d), d)
  {
  }

  lemma TwinDiagonal(a: Board, b: Board, r: int, c: int)
    requires a.Valid() && BoardTwins(a, b) && InBounds(a, r, c)
    ensures DiagonalRun(a, r, c) == DiagonalRun(b, r, c)
  {
    var d := Offset(a, r, c);
    assert Offset(b, r, c) == d;
    DiagonalRunAt(a, r, c, d);
    DiagonalRunAt(b, r, c, d);
    TwinWalks(a, b, r + d, c - d);
    TwinsInRunAt(DiagonalWalk(a, r + d, c - d), DiagonalWalk(b, r + d, c - d), d);
  }

  /** Twin boards have the same runs in every orientation. */
  lemma TwinsSameRuns(a: Board, b: Board)
    requires a.Valid() && BoardTwins(a, b)
    ensures forall r, c :: InBounds(a, r, c) ==> HorizontalRun(a, r, c) == HorizontalRun(b, r, c)
    ensures forall r, c :: InBounds(a, r, c) ==> VerticalRun(a, r, c) == VerticalRun(b, r, c)
    ensures forall r, c :: InBounds(a, r, c) ==> DiagonalRun(a, r, c) == DiagonalRun(b, r, c)
  {
    forall r, c | InBounds(a, r, c)
      ensures HorizontalRun(a, r, c) == HorizontalRun(b, r, c)
    {
      TwinHorizontal(a, b, r, c);
    }
    forall r, c | InBounds(a, r, c)
      ensures VerticalRun(a, r, c) == VerticalRun(b, r, c)
    {
      TwinVertical(a, b, r, c);
    }
    forall r, c | InBounds(a, r, c)
      ensures DiagonalRun(a, r, c) == DiagonalRun(b, r, c)
    {
      TwinDiagonal(a, b, r, c);
    }
  }
}

=== FILE: marking.dfy ===
/** `_mark_matched_cells` as the source writes it, one `_cell_state` call per
    cell, and its agreement with the line-position marking the scanners use. */
module Marking {
  import opened Cells
  import opened Boards
  import opened Scanner
  import opened Lines

  /** The three directions `_mark_matched_cells` walks back from the last cell of a run. */
  datatype MarkDirection = MarkLeft | MarkDown | MarkDownLeft

  /** The cell visited at step `i` of a marking walk that starts at `(row, column)`. */
  function MarkTarget(row: int, column: int, dir: MarkDirection, i: int): (t: (int, int)) {
    match dir
    case MarkLeft => (row, column - i)
    case MarkDown => (row + i, column)
    case MarkDownLeft => (row + i, column - i)
  }

  /** Every step of a marking walk of `amount` cells stays on the board. */
  predicate WalkOnBoard(b: Board, row: int, column: int, dir: MarkDirection, amount: nat) {
    forall i :: 0 <= i < amount ==> InBounds(b, MarkTarget(row, column, dir, i).0, MarkTarget(row, column, dir, i).1)
  }

  /** Position `(r, c)` is one of the `amount` cells of the marking walk. */
  predicate Targeted(row: int, column: int, dir: MarkDirection, amount: nat, r: int, c: int) {
    exists i :: 0 <= i < amount && MarkTarget(row, column, dir, i) == (r, c)
  }

  /** `_mark_matched_cells(row, column, dir, amount)`: step 0 first, each step
      sets the state of one cell to matching. */
  function MarkMatchedCells(b: Board, row: int, column: int, dir: MarkDirection, amount: nat): (b': Board)
    requires b.Valid() && WalkOnBoard(b, row, column, dir, amount)
    ensures SameShape(b, b')
    ensures forall r, c :: InBounds(b, r, c) ==>
      Get(b', r, c) ==
        if Targeted(row, column, dir, amount, r, c) then Marked(Get(b, r, c))
        else Get(b, r, c)
    decreases amount
  {
    if amount == 0 then b
    else
      var t := MarkTarget(row, column, dir, amount - 1);
      var prev := MarkMatchedCells(b, row, column, dir, amount - 1);
      var next := SetState(prev, t.0, t.1, Matching);
      assert forall r, c :: InBounds(b, r, c) && (r, c) != t ==> Get(next, r, c) == Get(prev, r, c);
      next
  }

  /** The horizontal call `_mark_matched_cells(r, e, left, n)` marks what one
      more marked range of the row line does. */
  lemma MarkLeftIsMarkRow(b: Board, r: int, marks: seq<bool>, e: int, n: nat)
    requires b.Valid() && 0 <= r < b.rows && |marks| == b.columns && 0 <= e - n + 1 && e < b.columns
    ensures WalkOnBoard(b, r, e, MarkLeft, n)
    ensures MarkRow(b, r, MarkBack(marks, e, n)) == MarkMatchedCells(MarkRow(b, r, marks), r, e, MarkLeft, n)
  {
    var x, y := MarkRow(b, r, MarkBack(marks, e, n)), MarkMatchedCells(MarkRow(b, r, marks), r, e, MarkLeft, n);
    forall r2, c2 | InBounds(b, r2, c2)
      ensures Get(x, r2, c2) == Get(y, r2, c2)
    {
      if r2 == r && e - n < c2 <= e {
        assert MarkTarget(r, e, MarkLeft, e - c2) == (r2, c2);
      }
    }
    BoardsEqual(x, y);
  }

  /** The vertical call `_mark_matched_cells(rows - 1 - e, c, down, n)` marks what
      one more marked range of the bottom-to-top column line does. */
  lemma MarkDownIsMarkColumn(b: Board, c: int, marks: seq<bool>, e: int, n: nat)
    requires b.Valid() && 0 <= c < b.columns && |marks| == b.rows && 0 <= e - n + 1 && e < b.rows
    ensures WalkOnBoard(b, b.rows - 1 - e, c, MarkDown, n)
    ensures MarkColumn(b, c, MarkBack(marks, e, n)) ==
      MarkMatchedCells(MarkColumn(b, c, marks), b.rows - 1 - e, c, MarkDown, n)
  {
    var x, y := MarkColumn(b, c, MarkBack(marks, e, n)), MarkMatchedCells(MarkColumn(b, c, marks), b.rows - 1 - e, c, MarkDown, n);
    forall r2, c2 | InBounds(b, r2, c2)
      ensures Get(x, r2, c2) == Get(y, r2, c2)
    {
      var k := b.rows - 1 - r2;
      if c2 == c && e - n < k <= e {
        assert MarkTarget(b.rows - 1 - e, c, MarkDown, e - k) == (r2, c2);
      }
    }
    BoardsEqual(x, y);
  }

  /** One cell of `MarkDownLeftIsMarkWalk`, stated on the cell values the two sides produce. */
  lemma DownLeftCell(marks: seq<bool>, e: int, n: nat, r: int, c: int, r2: int, c2: int,
                     orig: Cell, base: Cell, x: Cell, y: Cell)
    requires 0 <= e - n + 1 && e < |marks|
    requires base == if c <= c2 < c + |marks| && r2 == r - (c2 - c) && marks[c2 - c] then Marked(orig) else orig
    requires x == if c <= c2 < c + |marks| && r2 == r - (c2 - c) && MarkBack(marks, e, n)[c2 - c] then Marked(orig) else orig
    requires y == if Targeted(r - e, c + e, MarkDownLeft, n, r2, c2) then Marked(base) else base
    ensures x == y
  {
    var k := c2 - c;
    if c <= c2 < c + |marks| && r2 == r - k && e - n < k <= e {
      var i := e - k;
      assert r - e + i == r2 && c + e - i == c2;
      assert MarkTarget(r - e, c + e, MarkDownLeft, i) == (r2, c2);
    }
  }

  /** The diagonal call `_mark_matched_cells(r - e, c + e, down_left, n)` marks
      what one more marked range of the walk anchored at `(r, c)` does. */
  lemma MarkDownLeftIsMarkWalk(b: Board, r: int, c: int, marks: seq<bool>, e: int, n: nat)
    requires b.Valid() && InBounds(b, r, c) && |marks| == WalkLength(b, r, c) && 0 <= e - n + 1 && e < |marks|
    ensures WalkOnBoard(b, r - e, c + e, MarkDownLeft, n)
    ensures MarkWalk(b, r, c, MarkBack(marks, e, n)) ==
      MarkMatchedCells(MarkWalk(b, r, c, marks), r - e, c + e, MarkDownLeft, n)
  {
    var base := MarkWalk(b, r, c, marks);
    var x, y := MarkWalk(b, r, c, MarkBack(marks, e, n)), MarkMatchedCells(base, r - e, c + e, MarkDownLeft, n);
    forall r2, c2 | InBounds(b, r2, c2)
      ensures Get(x, r2, c2) == Get(y, r2, c2)
    {
      DownLeftCell(marks, e, n, r, c, r2, c2, Get(b, r2, c2), Get(base, r2, c2), Get(x, r2, c2), Get(y, r2, c2));
    }
    BoardsEqual(x, y);
  }
}

=== FILE: matching.dfy ===
/** `_matching` and the three directional scanners over the whole board. */
module Matching {
  import opened Cells
  import opened Boards
  import opened Runs
  import opened Scanner
  import opened Lines
  import opened Compaction

  /** `_match_horizontal`: every row, bottom row first, scanned left to right. */
  method MatchHorizontal(b: Board) returns (b': Board)
    requires b.Valid()
    ensures SameShape(b, b')
    ensures forall r, c :: InBounds(b, r, c) ==>
      Get(b', r, c) == if HorizontalRun(b, r, c) then Marked(Get(b, r, c)) else Get(b, r, c)
  {
    b' := b;
    var r := b.rows;
    while r > 0
      invariant 0 <= r <= b.rows && SameShape(b, b')
      invariant forall r2, c :: InBounds(b, r2, c) ==>
        Get(b', r2, c) == if r2 >= r && HorizontalRun(b, r2, c) then Marked(Get(b, r2, c)) else Get(b, r2, c)
    {
      r := r - 1;
      var line := RowLine(b, r);
      assert RowLine(b', r) == line;
      var marks := ScanLine(RowLine(b', r));
      var prev := b';
      b' := MarkRow(prev, r, marks);
      forall r2, c | InBounds(b, r2, c)
        ensures Get(b', r2, c) == if r2 >= r && HorizontalRun(b, r2, c) then Marked(Get(b, r2, c)) else Get(b, r2, c)
      {
        if r2 == r {
          assert Get(prev, r, c) == Get(b, r, c);
          assert marks[c] == HorizontalRun(b, r, c);
        } else {
          assert Get(b', r2, c) == Get(prev, r2, c);
        }
      }
    }
  }

  /** `_match_vertical`: every column, left column first, scanned bottom to top. */
  method MatchVertical(b: Board) returns (b': Board)
    requires b.Valid()
    ensures SameShape(b, b')
    ensures forall r, c :: InBounds(b, r, c) ==>
      Get(b', r, c) == if VerticalRun(b, r, c) then Marked(Get(b, r, c)) else Get(b, r, c)
  {
    b' := b;
    for c := 0 to b.columns
      invariant SameShape(b, b')
      invariant forall r, c2 :: InBounds(b, r, c2) ==>
        Get(b', r, c2) == if c2 < c && VerticalRun(b, r, c2) then Marked(Get(b, r, c2)) else Get(b, r, c2)
    {
      b' := ScanColumn(b, b', c);
    }
  }

  /** One iteration of `_match_vertical`: scan column `c` of the board so far
      and mark the cells of its runs. */
  method ScanColumn(b: Board, prev: Board, c: int) returns (next: Board)
    requires b.Valid() && 0 <= c < b.columns && SameShape(b, prev)
    requires forall r, c2 :: InBounds(b, r, c2) ==>
      Get(prev, r, c2) == if c2 < c && VerticalRun(b, r, c2) then Marked(Get(b, r, c2)) else Get(b, r, c2)
    ensures SameShape(b, next)
    ensures forall r, c2 :: InBounds(b, r, c2) ==>
      Get(next, r, c2) == if c2 < c + 1 && VerticalRun(b, r, c2) then Marked(Get(b, r, c2)) else Get(b, r, c2)
  {
    var line := ColumnLine(prev, c);
    assert line == ColumnLine(b, c);
    var marks := ScanLine(line);
    next := MarkColumn(prev, c, marks);
    VerticalStep(b, prev, next, c, line, marks);
  }

  /** One iteration of `_match_vertical`: marking column `c` by its scan extends
      the loop invariant past `c`. */
  lemma VerticalStep(b: Board, prev: Board, next: Board, c: int, line: seq<Cell>, marks: seq<bool>)
    requires b.Valid() && 0 <= c < b.columns && SameShape(b, prev) && SameShape(b, next)
    requires forall r, c2 :: InBounds(b, r, c2) ==>
      Get(prev, r, c2) == if c2 < c && VerticalRun(b, r, c2) then Marked(Get(b, r, c2)) else Get(b, r, c2)
    requires line == ColumnLine(b, c)
    requires |marks| == |line| && forall j :: 0 <= j < |line| ==> marks[j] == InRun(line, j)
    requires forall r, c2 :: InBounds(b, r, c2) ==>
      Get(next, r, c2) == if c2 == c && marks[b.rows - 1 - r] then Marked(Get(prev, r, c2)) else Get(prev, r, c2)
    ensures forall r, c2 :: InBounds(b, r, c2) ==>
      Get(next, r, c2) == if c2 < c + 1 && VerticalRun(b, r, c2) then Marked(Get(b, r, c2)) else Get(b, r, c2)
  {
    forall r, c2 | InBounds(b, r, c2)
      ensures Get(next, r, c2) == if c2 < c + 1 && VerticalRun(b, r, c2) then Marked(Get(b, r, c2)) else Get(b, r, c2)
    {
      VerticalStepCell(b, prev, next, c, marks, r, c2);
    }
  }

  lemma VerticalStepCell(b: Board, prev: Board, next: Board, c: int, marks: seq<bool>, r: int, c2: int)
    requires b.Valid() && 0 <= c < b.columns && SameShape(b, prev) && SameShape(b, next) && InBounds(b, r, c2)
    requires Get(prev, r, c2) == if c2 < c && VerticalRun(b, r, c2) then Marked(Get(b, r, c2)) else Get(b, r, c2)
    requires |marks| == b.rows && marks[b.rows - 1 - r] == InRun(ColumnLine(b, c), b.rows - 1 - r)
    requires Get(next, r, c2) == if c2 == c && marks[b.rows - 1 - r] then Marked(Get(prev, r, c2)) else Get(prev, r, c2)
    ensures Get(next, r, c2) == if c2 < c + 1 && VerticalRun(b, r, c2) then Marked(Get(b, r, c2)) else Get(b, r, c2)
  {
  }

  /** A walk anchored at `(r, c)` has been scanned once the outer loop is below
      row `r`, or is at row `r` and past column `c`. */
  predicate Scanned(r: int, c: int, row: int, col: int) {
    r > row || (r == row && c < col)
  }

  /** The loop state of `_match_diagonal`: only diagonal-run cells were marked,
      and every diagonal-run cell whose diagonal starts at a scanned anchor is marked. */
  ghost predicate DiagonalProgress(b: Board, b': Board, row: int, col: int)
    requires b.Valid()
  {
    SameShape(b, b') &&
    (forall r, c :: InBounds(b, r, c) ==>
       Get(b', r, c) == Get(b, r, c) || (Get(b', r, c) == Marked(Get(b, r, c)) && DiagonalRun(b, r, c))) &&
    (forall r, c :: (InBounds(b, r, c) && DiagonalRun(b, r, c) &&
       Scanned(r + Offset(b, r, c), c - Offset(b, r, c), row, col)) ==> Get(b', r, c).state == Matching)
  }

  lemma ProgressTwins(b: Board, b': Board, row: int, col: int)
    requires b.Valid() && DiagonalProgress(b, b', row, col)
    ensures BoardTwins(b, b')
  {
    forall r, c | InBounds(b, r, c)
      ensures Matchable(Get(b, r, c).state) == Matchable(Get(b', r, c).state)
    {
      if Get(b', r, c) != Get(b, r, c) {
        DiagonalRunMatchable(b, r, c);
      }
    }
  }

  lemma AnchorSoundCell(b: Board, cur: Board, row: int, col: int, marks: seq<bool>, r: int, c: int)
    requires b.Valid() && InBounds(b, row, col) && SameShape(b, cur) && InBounds(b, r, c)
    requires Get(cur, r, c) == Get(b, r, c) || (Get(cur, r, c) == Marked(Get(b, r, c)) && DiagonalRun(b, r, c))
    requires |marks| == WalkLength(b, row, col)
    requires forall k :: 0 <= k < |marks| ==> marks[k] == InRun(DiagonalWalk(b, row, col), k)
    ensures var next := MarkWalk(cur, row, col, marks);
      Get(next, r, c) == Get(b, r, c) || (Get(next, r, c) == Marked(Get(b, r, c)) && DiagonalRun(b, r, c))
  {
    var next := MarkWalk(cur, row, col, marks);
    AnchorSoundStep(b, cur, next, row, col, marks, r, c);
  }

  /** The step of `AnchorSoundCell` for a cell whose new value is given. */
  lemma AnchorSoundStep(b: Board, cur: Board, next: Board, row: int, col: int, marks: seq<bool>, r: int, c: int)
    requires b.Valid() && InBounds(b, row, col) && SameShape(b, cur) && SameShape(b, next) && InBounds(b, r, c)
    requires Get(cur, r, c) == Get(b, r, c) || (Get(cur, r, c) == Marked(Get(b, r, c)) && DiagonalRun(b, r, c))
    requires |marks| == WalkLength(b, row, col)
    requires forall k :: 0 <= k < |marks| ==> marks[k] == InRun(DiagonalWalk(b, row, col), k)
    requires Get(next, r, c) ==
      if col <= c < col + |marks| && r == row - (c - col) && marks[c - col] then Marked(Get(cur, r, c)) else Get(cur, r, c)
    ensures Get(next, r, c) == Get(b, r, c) || (Get(next, r, c) == Marked(Get(b, r, c)) && DiagonalRun(b, r, c))
  {
    if col <= c < col + |marks| && r == row - (c - col) && marks[c - col] {
      var k := c - col;
      assert InRun(DiagonalWalk(b, row, col), k);
      WalkRunIsDiagonalRun(b, row, col, k);
    }
  }

  lemma AnchorCompleteCell(b: Board, cur: Board, row: int, col: int, marks: seq<bool>, r: int, c: int)
    requires b.Valid() && InBounds(b, row, col) && SameShape(b, cur) && InBounds(b, r, c) && DiagonalRun(b, r, c)
    requires Scanned(r + Offset(b, r, c), c - Offset(b, r, c), row, col) ==> Get(cur, r, c).state == Matching
    requires Scanned(r + Offset(b, r, c), c - Offset(b, r, c), row, col + 1)
    requires |marks| == WalkLength(b, row, col)
    requires forall k :: 0 <= k < |marks| ==> marks[k] == InRun(DiagonalWalk(b, row, col), k)
    ensures Get(MarkWalk(cur, row, col, marks), r, c).state == Matching
  {
    var next := MarkWalk(cur, row, col, marks);
    AnchorCompleteStep(b, cur, next, row, col, marks, r, c);
  }

  /** The step of `AnchorCompleteCell` for a cell whose new value is given: a run
      cell whose diagonal starts at this anchor is found by this walk. */
  lemma AnchorCompleteStep(b: Board, cur: Board, next: Board, row: int, col: int, marks: seq<bool>, r: int, c: int)
    requires b.Valid() && InBounds(b, row, col) && SameShape(b, cur) && SameShape(b, next) && InBounds(b, r, c)
    requires DiagonalRun(b, r, c)
    requires Scanned(r + Offset(b, r, c), c - Offset(b, r, c), row, col) ==> Get(cur, r, c).state == Matching
    requires Scanned(r + Offset(b, r, c), c - Offset(b, r, c), row, col + 1)
    requires |marks| == WalkLength(b, row, col)
    requires forall k :: 0 <= k < |marks| ==> marks[k] == InRun(DiagonalWalk(b, row, col), k)
    requires Get(next, r, c) ==
      if col <= c < col + |marks| && r == row - (c - col) && marks[c - col] then Marked(Get(cur, r, c)) else Get(cur, r, c)
    ensures Get(next, r, c).state == Matching
  {
    var d := Offset(b, r, c);
    if r + d == row && c - d == col {
      assert row == b.rows - 1 || col == 0;
      EndWalkFindsDiagonalRuns(b, row, col, d);
      assert marks[c - col];
    }
  }

  /** Scanning the walk anchored at `(row, col)` advances the loop state by one anchor. */
  lemma AnchorStep(b: Board, cur: Board, row: int, col: int, marks: seq<bool>)
    requires b.Valid() && InBounds(b, row, col) && DiagonalProgress(b, cur, row, col)
    requires |marks| == WalkLength(b, row, col)
    requires forall k :: 0 <= k < |marks| ==> marks[k] == InRun(DiagonalWalk(b, row, col), k)
    ensures DiagonalProgress(b, MarkWalk(cur, row, col, marks), row, col + 1)
  {
    var next := MarkWalk(cur, row, col, marks);
    forall r, c | InBounds(b, r, c)
      ensures Get(next, r, c) == Get(b, r, c) || (Get(next, r, c) == Marked(Get(b, r, c)) && DiagonalRun(b, r, c))
    {
      AnchorSoundCell(b, cur, row, col, marks, r, c);
    }
    forall r, c | InBounds(b, r, c) && DiagonalRun(b, r, c) && Scanned(r + Offset(b, r, c), c - Offset(b, r, c), row, col + 1)
      ensures Get(next, r, c).state == Matching
    {
      AnchorCompleteCell(b, cur, row, col, marks, r, c);
    }
  }

  /** `_match_diagonal`: from every anchor, bottom row first and left to right,
      the "/" walk up and to the right is scanned. */
  method MatchDiagonal(b: Board) returns (b': Board)
    requires b.Valid()
    ensures SameShape(b, b')
    ensures forall r, c :: InBounds(b, r, c) ==>
      Get(b', r, c) == if DiagonalRun(b, r, c) then Marked(Get(b, r, c)) else Get(b, r, c)
  {
    b' := b;
    var row := b.rows;
    while row > 0
      invariant 0 <= row <= b.rows
      invariant DiagonalProgress(b, b', row - 1, 0)
    {
      row := row - 1;
      for col := 0 to b.columns
        invariant DiagonalProgress(b, b', row, col)
      {
        ProgressTwins(b, b', row, col);
        TwinWalks(b, b', row, col);
        TwinsInRun(DiagonalWalk(b, row, col), DiagonalWalk(b', row, col));
        var marks := ScanLine(DiagonalWalk(b', row, col));
        AnchorStep(b, b', row, col, marks);
        b' := MarkWalk(b', row, col, marks);
      }
      assert DiagonalProgress(b, b', row - 1, 0) by {
        forall r, c | InBounds(b, r, c)
          ensures Scanned(r + Offset(b, r, c), c - Offset(b, r, c), row - 1, 0) ==>
                  Scanned(r + Offset(b, r, c), c - Offset(b, r, c), row, b.columns)
        {
        }
      }
    }
    forall r, c | InBounds(b, r, c)
      ensures Get(b', r, c) == if DiagonalRun(b, r, c) then Marked(Get(b, r, c)) else Get(b, r, c)
    {
      assert Scanned(r + Offset(b, r, c), c - Offset(b, r, c), -1, 0);
    }
  }
  /** The first loop of `_matching`: every matching cell is cleared. */
  function ClearMatching(b: Board): (b': Board)
    requires b.Valid()
    ensures SameShape(b, b')
    ensures forall r, c :: InBounds(b, r, c) ==>
      Get(b', r, c) == if Get(b, r, c).state == Matching then EmptyCellValue else Get(b, r, c)
  {
    b.(cells := seq(b.columns, c requires 0 <= c < b.columns =>
      seq(b.rows, r requires 0 <= r < b.rows =>
        if b.cells[c][r].state == Matching then EmptyCellValue else b.cells[c][r])))
  }

  /** The board `_matching` scans: matching cells cleared, then gravity. */
  function Collapsed(b: Board): (g: Board)
    requires b.Valid()
    ensures SameShape(b, g)
    ensures forall r, c :: InBounds(g, r, c) ==> Get(g, r, c).state != Matching
  {
    Gravity(ClearMatching(b))
  }

  /** What `_matching` computes, stated cell by cell: the settled board with every
      cell of a horizontal, vertical or "/" run marked. */
  function Resolve(b: Board): (b': Board)
    requires b.Valid()
    ensures SameShape(b, b')
  {
    var g := Collapsed(b);
    g.(cells := seq(g.columns, c requires 0 <= c < g.columns =>
      seq(g.rows, r requires 0 <= r < g.rows =>
        if AnyRun(g, r, c) then Marked(g.cells[c][r]) else g.cells[c][r])))
  }

  lemma HorizontalRunMatchable(b: Board, r: int, c: int)
    requires b.Valid() && InBounds(b, r, c) && HorizontalRun(b, r, c)
    ensures Matchable(Get(b, r, c).state)
  {
    assert RowLine(b, r)[c] == Get(b, r, c);
  }

  lemma VerticalRunMatchable(b: Board, r: int, c: int)
    requires b.Valid() && InBounds(b, r, c) && VerticalRun(b, r, c)
    ensures Matchable(Get(b, r, c).state)
  {
    assert ColumnLine(b, c)[b.rows - 1 - r] == Get(b, r, c);
  }

  /** A board that differs only by marking matchable cells is a twin. */
  lemma MarkingMakesTwins(a: Board, b: Board)
    requires a.Valid() && SameShape(a, b)
    requires forall r, c :: InBounds(a, r, c) ==>
      Get(b, r, c) == Get(a, r, c) || (Get(b, r, c) == Marked(Get(a, r, c)) && Matchable(Get(a, r, c).state))
    ensures BoardTwins(a, b)
  {
  }

  /** Each scan only marks matchable cells of its own runs, so the later scans see
      the same runs as the first one: `h` and `v` are twins of `g`. */
  lemma LaterScansSeeSameRuns(g: Board, h: Board, v: Board)
    requires g.Valid() && SameShape(g, h) && SameShape(h, v)
    requires forall r, c :: InBounds(g, r, c) ==>
      Get(h, r, c) == if HorizontalRun(g, r, c) then Marked(Get(g, r, c)) else Get(g, r, c)
    requires forall r, c :: InBounds(h, r, c) ==>
      Get(v, r, c) == if VerticalRun(h, r, c) then Marked(Get(h, r, c)) else Get(h, r, c)
    ensures forall r, c :: InBounds(g, r, c) ==> VerticalRun(h, r, c) == VerticalRun(g, r, c)
    ensures forall r, c :: InBounds(g, r, c) ==> DiagonalRun(v, r, c) == DiagonalRun(g, r, c)
  {
    forall r, c | InBounds(g, r, c) && HorizontalRun(g, r, c)
      ensures Matchable(Get(g, r, c).state)
    {
      HorizontalRunMatchable(g, r, c);
    }
    MarkingMakesTwins(g, h);
    TwinsSameRuns(g, h);
    forall r, c | InBounds(h, r, c) && VerticalRun(h, r, c)
      ensures Matchable(Get(h, r, c).state)
    {
      VerticalRunMatchable(h, r, c);
    }
    MarkingMakesTwins(h, v);
    assert BoardTwins(g, v);
    TwinsSameRuns(g, v);
  }

  /** One cell through the three scans: marked once if any of its runs is present. */
  lemma ThreeScansCell(g: Board, h: Board, v: Board, w: Board, r: int, c: int)
    requires g.Valid() && InBounds(g, r, c) && SameShape(g, h) && SameShape(h, v) && SameShape(v, w)
    requires Get(h, r, c) == if HorizontalRun(g, r, c) then Marked(Get(g, r, c)) else Get(g, r, c)
    requires Get(v, r, c) == if VerticalRun(g, r, c) then Marked(Get(h, r, c)) else Get(h, r, c)
    requires Get(w, r, c) == if DiagonalRun(g, r, c) then Marked(Get(v, r, c)) else Get(v, r, c)
    ensures Get(w, r, c) == if AnyRun(g, r, c) then Marked(Get(g, r, c)) else Get(g, r, c)
  {
  }

  /** Three scans that each mark their own runs, of a board whose runs they all
      share, amount to marking every cell of any run at once. */
  lemma ThreeScansResolve(b: Board, g: Board, h: Board, v: Board, w: Board)
    requires b.Valid() && g == Collapsed(b) && SameShape(g, h) && SameShape(h, v) && SameShape(v, w)
    requires forall r, c :: InBounds(g, r, c) ==>
      Get(h, r, c) == if HorizontalRun(g, r, c) then Marked(Get(g, r, c)) else Get(g, r, c)
    requires forall r, c :: InBounds(h, r, c) ==>
      Get(v, r, c) == if VerticalRun(g, r, c) then Marked(Get(h, r, c)) else Get(h, r, c)
    requires forall r, c :: InBounds(v, r, c) ==>
      Get(w, r, c) == if DiagonalRun(g, r, c) then Marked(Get(v, r, c)) else Get(v, r, c)
    ensures w == Resolve(b)
  {
    var res := Resolve(b);
    forall c | 0 <= c < b.columns
      ensures w.cells[c] == res.cells[c]
    {
      forall r | 0 <= r < b.rows
        ensures w.cells[c][r] == res.cells[c][r]
      {
        ThreeScansCell(g, h, v, w, r, c);
        assert res.cells[c][r] == if AnyRun(g, r, c) then Marked(g.cells[c][r]) else g.cells[c][r];
      }
    }
  }

  /** Cell by cell, `Resolve` keeps every jewel, marks exactly the cells of runs of
      the settled board and leaves the rest as gravity left them. */
  lemma ResolveMarksRuns(b: Board)
    requires b.Valid()
    ensures forall r, c :: InBounds(b, r, c) ==> Get(Resolve(b), r, c).contents == Get(Collapsed(b), r, c).contents
    ensures forall r, c :: InBounds(b, r, c) ==> (Get(Resolve(b), r, c).state == Matching <==> AnyRun(Collapsed(b), r, c))
    ensures forall r, c :: InBounds(b, r, c) && !AnyRun(Collapsed(b), r, c) ==> Get(Resolve(b), r, c) == Get(Collapsed(b), r, c)
  {
  }

  /** `_matching`: clear the cells marked by the previous pass, apply gravity,
      then run the three scanners, each on the board the previous one left. */
  method MatchingPass(b: Board) returns (b': Board)
    requires b.Valid()
    ensures SameShape(b, b')
    ensures forall r, c :: InBounds(b, r, c) ==> Get(b', r, c).contents == Get(Collapsed(b), r, c).contents
    ensures forall r, c :: InBounds(b, r, c) ==> (Get(b', r, c).state == Matching <==> AnyRun(Collapsed(b), r, c))
    ensures forall r, c :: InBounds(b, r, c) && !AnyRun(Collapsed(b), r, c) ==> Get(b', r, c) == Get(Collapsed(b), r, c)
    ensures b' == Resolve(b)
  {
    var g := Gravity(ClearMatching(b));
    var h := MatchHorizontal(g);
    var v := MatchVertical(h);
    b' := MatchDiagonal(v);
    LaterScansSeeSameRuns(g, h, v);
    ThreeScansResolve(b, g, h, v, b');
    ResolveMarksRuns(b);
  }

  /** The matching pass keeps the blank-iff-empty invariant. */
  lemma ResolveConsistent(b: Board)
    requires b.Valid() && AllConsistent(b)
    ensures AllConsistent(Resolve(b))
  {
    var g := Collapsed(b);
    assert AllConsistent(ClearMatching(b));
    assert AllConsistent(g);
    forall r, c | InBounds(g, r, c) && AnyRun(g, r, c)
      ensures Matchable(Get(g, r, c).state)
    {
      if HorizontalRun(g, r, c) {
        HorizontalRunMatchable(g, r, c);
      } else if VerticalRun(g, r, c) {
        VerticalRunMatchable(g, r, c);
      } else {
        DiagonalRunMatchable(g, r, c);
      }
    }
  }
}

=== FILE: runs.dfy ===
/** Runs of equal matchable cells along one scan line.  A line is the
    sequence of cells a scanner visits in order: a row left to right, a column
    bottom to top, or a "/" diagonal from its lower-left end upwards. */
module Runs {
  import opened Cells

  /** Positions `i-1` and `i` are adjacent cells of one run: both matchable, same contents. */
  predicate Link(line: seq<Cell>, i: int) {
    0 < i < |line| && Matchable(line[i - 1].state) && Matchable(line[i].state)
    && line[i - 1].contents == line[i].contents
  }

  /** How many cells of the run through `i` come before `i`. */
  function Before(line: seq<Cell>, i: nat): (n: nat)
    requires i < |line|
    ensures n <= i
  {
    if Link(line, i) then 1 + Before(line, i - 1) else 0
  }

  /** How many cells of the run through `i` come after `i`. */
  function After(line: seq<Cell>, i: nat): (n: nat)
    requires i < |line|
    ensures i + n < |line|
    decreases |line| - i
  {
    if Link(line, i + 1) then 1 + After(line, i + 1) else 0
  }

  /** Position `i` lies in a maximal run of at least three equal matchable cells. */
  predicate InRun(line: seq<Cell>, i: nat)
    requires i < |line|
  {
    Matchable(line[i].state) && Before(line, i) + After(line, i) + 1 >= 3
  }

  /** Positions `s..e` all hold matchable cells with the contents of position `s`. */
  ghost predicate Uniform(line: seq<Cell>, s: int, e: int) {
    0 <= s <= e < |line| &&
    forall j :: s <= j <= e ==> Matchable(line[j].state) && line[j].contents == line[s].contents
  }

  /** The independent reading: `i` is covered by some uniform stretch of length at least three. */
  ghost predicate InLongStretch(line: seq<Cell>, i: int) {
    exists s, e :: s <= i <= e && e - s >= 2 && Uniform(line, s, e)
  }

  lemma {:induction false} BeforeIsUniform(line: seq<Cell>, i: nat)
    requires i < |line| && Matchable(line[i].state)
    ensures Uniform(line, i - Before(line, i), i)
    decreases i
  {
    if Link(line, i) {
      BeforeIsUniform(line, i - 1);
    }
  }

  lemma {:induction false} AfterIsUniform(line: seq<Cell>, i: nat)
    requires i < |line| && Matchable(line[i].state)
    ensures Uniform(line, i, i + After(line, i))
    decreases |line| - i
  {
    if Link(line, i + 1) {
      AfterIsUniform(line, i + 1);
    }
  }

  lemma {:induction false} BeforeCovers(line: seq<Cell>, s: int, i: nat)
    requires i < |line| && Uniform(line, s, i)
    ensures Before(line, i) >= i - s
    decreases i
  {
    if s < i {
      assert Link(line, i);
      BeforeCovers(line, s, i - 1);
    }
  }

  lemma {:induction false} AfterCovers(line: seq<Cell>, i: nat, e: int)
    requires Uniform(line, i, e)
    ensures After(line, i) >= e - i
    decreases e - i
  {
    if i < e {
      assert Link(line, i + 1);
      AfterCovers(line, i + 1, e);
    }
  }

  /** The counting definition and the stretch definition of a run agree. */
  lemma InRunIffLongStretch(line: seq<Cell>, i: nat)
    requires i < |line|
    ensures InRun(line, i) <==> InLongStretch(line, i)
  {
    if InRun(line, i) {
      var s, e := i - Before(line, i), i + After(line, i);
      BeforeIsUniform(line, i);
      AfterIsUniform(line, i);
      assert Uniform(line, s, e);
    }
    if InLongStretch(line, i) {
      var s, e :| s <= i <= e && e - s >= 2 && Uniform(line, s, e);
      assert Uniform(line, s, i);
      assert Uniform(line, i, e);
      BeforeCovers(line, s, i);
      AfterCovers(line, i, e);
    }
  }

  /** Three equal matchable cells in a row are always in a run; a maximal pair
      of two never is. */
  lemma MinimumRunLength(line: seq<Cell>, i: nat)
    requires i + 1 < |line| && Link(line, i + 1)
    ensures i + 2 < |line| && Link(line, i + 2) ==> InRun(line, i) && InRun(line, i + 1) && InRun(line, i + 2)
    ensures !Link(line, i) && !Link(line, i + 2) ==> !InRun(line, i) && !InRun(line, i + 1)
  {
    assert After(line, i) == 1 + After(line, i + 1);
    assert Before(line, i + 1) == 1 + Before(line, i);
    if i + 2 < |line| && Link(line, i + 2) {
      assert After(line, i + 1) == 1 + After(line, i + 2);
      assert Before(line, i + 2) == 1 + Before(line, i + 1);
    }
    if !Link(line, i) && !Link(line, i + 2) {
      assert Before(line, i) == 0 && After(line, i + 1) == 0;
    }
  }

  /** Two lines that agree on contents and on matchability everywhere. */
  predicate Twins(a: seq<Cell>, b: seq<Cell>) {
    |a| == |b| &&
    forall j :: 0 <= j < |a| ==> a[j].contents == b[j].contents && Matchable(a[j].state) == Matchable(b[j].state)
  }

  lemma {:induction false} TwinsBefore(a: seq<Cell>, b: seq<Cell>, i: nat)
    requires Twins(a, b) && i < |a|
    ensures Before(a, i) == Before(b, i)
    decreases i
  {
    assert Link(a, i) == Link(b, i);
    if Link(a, i) {
      TwinsBefore(a, b, i - 1);
    }
  }

  lemma {:induction false} TwinsAfter(a: seq<Cell>, b: seq<Cell>, i: nat)
    requires Twins(a, b) && i < |a|
    ensures After(a, i) == After(b, i)
    decreases |a| - i
  {
    assert Link(a, i + 1) == Link(b, i + 1);
    if Link(a, i + 1) {
      TwinsAfter(a, b, i + 1);
    }
  }

  lemma TwinsInRunAt(a: seq<Cell>, b: seq<Cell>, i: nat)
    requires Twins(a, b) && i < |a|
    ensures InRun(a, i) == InRun(b, i)
  {
    TwinsBefore(a, b, i);
    TwinsAfter(a, b, i);
  }

  /** Runs depend only on contents and matchability, so marking cells as
      matching (which keeps both) never changes which cells are in runs. */
  lemma TwinsInRun(a: seq<Cell>, b: seq<Cell>)
    requires Twins(a, b)
    ensures forall i :: 0 <= i < |a| ==> InRun(a, i) == InRun(b, i)
  {
    forall i | 0 <= i < |a|
      ensures InRun(a, i) == InRun(b, i)
    {
      TwinsInRunAt(a, b, i);
    }
  }

  lemma {:induction false} SuffixBefore(line: seq<Cell>, d: nat, k: nat)
    requires d + k < |line|
    ensures Before(line[d..], k) <= Before(line, d + k)
    decreases k
  {
    var t := line[d..];
    if Link(t, k) {
      assert t[k - 1] == line[d + k - 1] && t[k] == line[d + k];
      assert Link(line, d + k);
      SuffixBefore(line, d, k - 1);
    }
  }

  lemma {:induction false} SuffixAfter(line: seq<Cell>, d: nat, k: nat)
    requires d + k < |line|
    ensures After(line[d..], k) == After(line, d + k)
    decreases |line| - d - k
  {
    var t := line[d..];
    assert Link(t, k + 1) == Link(line, d + k + 1) by {
      if k + 1 < |t| {
        assert t[k] == line[d + k] && t[k + 1] == line[d + k + 1];
      }
    }
    if Link(t, k + 1) {
      SuffixAfter(line, d, k + 1);
    }
  }

  /** A run found on a tail of a line is part of a run of the whole line. */
  lemma SuffixInRun(line: seq<Cell>, d: nat, k: nat)
    requires d + k < |line| && InRun(line[d..], k)
    ensures InRun(line, d + k)
  {
    SuffixBefore(line, d, k);
    SuffixAfter(line, d, k);
  }
}

=== FILE: scanner.dfy ===
/** The shared inner loop of `_match_horizontal`, `_match_vertical` and
    `_match_diagonal`, run over one scan line, together with
    `_mark_matched_cells` expressed on line positions. */
module Scanner {
  import opened Cells
  import opened Runs

  /** The tracked symbol of a scan; `NoJewel` is the source's `none` sentinel,
      which equals no cell's contents. */
  datatype Jewel = NoJewel | Tracking(symbol: char)

  /** `_mark_matched_cells` on line positions: the `amount` positions ending at
      `e`, walking back towards the start of the line. */
  function MarkBack(marks: seq<bool>, e: int, amount: int): (m: seq<bool>)
    requires 0 <= e - amount + 1 && e < |marks|
    ensures |m| == |marks|
    ensures forall j :: 0 <= j < |m| ==> m[j] == (marks[j] || e - amount < j <= e)
  {
    seq(|marks|, j requires 0 <= j < |marks| => marks[j] || e - amount < j <= e)
  }

  lemma {:induction false} BeforeWithin(line: seq<Cell>, e: nat, j: nat)
    requires j <= e < |line| && e - Before(line, e) <= j
    ensures Before(line, j) == j - (e - Before(line, e))
    decreases e - j
  {
    if j < e {
      BeforeWithin(line, e - 1, j);
    }
  }

  lemma {:induction false} AfterWithin(line: seq<Cell>, e: nat, j: nat)
    requires j <= e < |line| && e - Before(line, e) <= j && After(line, e) == 0
    ensures After(line, j) == e - j
    decreases e - j
  {
    if j < e {
      BeforeWithin(line, e, j + 1);
      assert Link(line, j + 1);
      AfterWithin(line, e, j + 1);
    }
  }

  /** A run that has just ended at `e` is in `InRun` exactly when it is at least three long. */
  lemma CloseRun(line: seq<Cell>, e: nat)
    requires e < |line| && Matchable(line[e].state) && !Link(line, e + 1)
    ensures forall j :: e - Before(line, e) <= j <= e ==> (InRun(line, j) <==> Before(line, e) + 1 >= 3)
  {
    BeforeIsUniform(line, e);
    forall j | e - Before(line, e) <= j <= e
      ensures InRun(line, j) <==> Before(line, e) + 1 >= 3
    {
      BeforeWithin(line, e, j);
      AfterWithin(line, e, j);
    }
  }

  /** The scan loop: counts the current run in `matches`, and whenever a run
      ends (a break or the end of the line) marks it if it reached three. */
  method ScanLine(line: seq<Cell>) returns (marks: seq<bool>)
    ensures |marks| == |line|
    ensures forall j :: 0 <= j < |line| ==> marks[j] == InRun(line, j)
  {
    var n := |line|;
    marks := seq(n, _ => false);
    var matches := 0;
    var jewel := NoJewel;
    for i := 0 to n
      invariant |marks| == n
      invariant i == 0 ==> matches == 0 && jewel == NoJewel
      invariant 0 < i < n && jewel.Tracking? ==>
        Matchable(line[i - 1].state) && jewel.symbol == line[i - 1].contents && matches == Before(line, i - 1) + 1
      invariant 0 < i < n && jewel.NoJewel? ==> !Matchable(line[i - 1].state) && matches == 1
      invariant forall j :: 0 <= j < n ==>
        marks[j] == (j < (if i == n then n else if jewel.Tracking? then i - matches else i) && InRun(line, j))
    {
      var contents, state := line[i].contents, line[i].state;
      var cellMatch := jewel == Tracking(contents) && Matchable(state);
      assert cellMatch == Link(line, i);
      if cellMatch {
        matches := matches + 1;
      }
      if i == n - 1 {
        if cellMatch {
          CloseRun(line, i);
          if matches >= 3 {
            marks := MarkBack(marks, i, matches);
          }
        } else {
          if jewel.Tracking? {
            CloseRun(line, i - 1);
          }
          if matches >= 3 {
            marks := MarkBack(marks, i - 1, matches);
          }
        }
      } else if !cellMatch {
        if jewel.Tracking? {
          CloseRun(line, i - 1);
        }
        if matches >= 3 {
          marks := MarkBack(marks, i - 1, matches);
        }
        if Matchable(state) {
          jewel := Tracking(contents);
          matches := 1;
        } else {
          jewel := NoJewel;
          matches := 1;
        }
      }
    }
  }
}
